=== FILE: README.md ===
# NUMATU pickup lifecycle — a Dafny model

NUMATU is a marketplace for recyclable material. An **advertiser** publishes a pickup
request (`CollectionData`). A **collector** accepts it, sets off, arrives and hands
over a six-digit code. The advertiser validates the code and the pickup is complete.
An **administrator** sees analytics over all requests. Everything lives in the
browser's storage; a collection save writes the list and dispatches a change event
that the notification centre listens to. As the router wires them, the screens'
own saves never reach storage (see "## Findings"). The `Lifecycle` properties
describe each step saved on the service object, as evidently intended.

This project models that core as immutable datatypes and pure functions:

| module | file | models |
|---|---|---|
| `Types` | types.dfy | users, roles, statuses, materials and the pickup record, including the fields the handlers write although the declared type omits them (`ts_em_rota`, `ts_expiracao`, the transient `_abandoned` marker) |
| `Database` | database.dfy | the storage service: collection and user upserts, seeding of the default administrator, session lookup; storage keys are `Slot`s (absent, parsable, or text that makes parsing throw) |
| `CollectorDashboard` | collector.dfy | marketplace and active-route projections, accept / depart / abandon, the six-digit code, the proximity-triggered arrival and its NaN guard |
| `AdvertiserView` | advertiser.dfy | publishing (with the São Paulo coordinate fallback), "my collections", the code-validation dialog and the digits-only token field |
| `NotificationCenter` | notifications.dfy | the five routing rules, the message a rule produces, the ten-entry list, the unread badge and mark-as-read |
| `AuthView` | auth.dfy | the CPF check-digit test, the three-step registration form, the address guard, account creation and the login match |
| `Dashboard`, `GeoAnalysis`, `Operational` | dashboard.dfy, geo.dfy, operational.dfy | the analytics projections |
| `Layout`, `App` | layout.dfy, app.dfy | the role-filtered menu, the header title, the landing tab and the screen router |
| `Lifecycle` | lifecycle.dfy | the status machine driven by the offered buttons, and properties that span several screens (accept then save, abandon then notify, confirm from accepted) |
| `Seqs`, `Tally`, `Text`, `Wrappers` | seqs.dfy, tally.dfy, text.dfy, wrappers.dfy | order-preserving filter / count / find, first-insertion-order grouping with sums, stable descending sort and truncation, digit strings, lower-casing and trimming, `Option` / `Result` |

Some JavaScript behaviour is written out explicitly:

- `||` fallbacks and truthiness (an empty string and the number 0 are falsy).
- `undefined++` yields NaN, and `isNaN` makes a distance `Infinity`.
- `Object.entries` keeps keys in first-insertion order.
- `Array.prototype.sort` is stable, so equal values keep their order (`Tally.SortTieOrdered`).
- `Math.round` rounds halves up.

The clock (`now`, in milliseconds), `Math.random` (`roll` in [0, 1)), generated
identifiers, the GPS fix and the haversine distance formula are all parameters.

Several gaps in the application are modelled as written, not corrected:

- The handlers do not check the current status. Only the buttons a screen offers decide what can happen: `Lifecycle.Offered`, `CollectorDashboard.DepartOffered`, `AdvertiserView.ValidateOffered`.
- Code validation is offered from `ACEITA`, so a pickup can be completed without any arrival (`Lifecycle.ConfirmSkipsArrival`).
- Abandoning keeps the confirmation code (`Lifecycle.AbandonLeavesCode`).
- Abandoning never sets `_abandoned`. The owner's "Coleta Abandonada" notification can therefore never be triggered by it; instead, every collector is told about a "Nova Oportunidade" (`Lifecycle.AbandonAnnouncedAsNew`).
- The "advertiser" and "gamification" tabs have no role check in the router. Any signed-in user who can reach such a tab is shown that screen. A non-collector on "geo" gets the map (`App.Content`).

## Model

| member | source | states |
|---|---|---|
| `Database.Clean` | database.ts:41 | the stored record has no `_abandoned` marker and is otherwise the given record |
| `Database.UpsertCollection` | database.ts:43-50 | an existing id: same length, every record with the id replaced in place by the cleaned record, all others unchanged; a new id: the cleaned record is prepended |
| `Database.UpsertCollectionStores` | database.ts:43-52 | after the upsert the id is present, every record with it is the cleaned record, and upserting again changes nothing |
| `Database.SaveCollection` | database.ts:39-57 | the collection slot holds the upserted list read from storage (empty when absent or unparsable), the user and session slots are untouched, and the event carries the record as given, marker included |
| `Database.SaveThrough` | database.ts:39-40 | a detached call fails with a TypeError and writes nothing; a call on the service object stores the upserted list, leaves users and session alone and dispatches the record |
| `Database.SaveCollectionIdempotent` | database.ts:39-57 | saving the same record twice leaves storage as saving it once, with the id present |
| `Database.GetUsers` | database.ts:59-86 | nothing stored: returns and stores exactly the default administrator; a parsable list is returned with storage unchanged; unparsable text reads as the empty list |
| `Database.GetSession` | database.ts:9-20 | no or unparsable session gives none; a returned user is in the current user list with the session's id; whenever such a user exists one is returned |
| `Database.UpsertUser` | database.ts:90-97 | an existing id is replaced in place, keeping the length; a new user is appended at the end; the id is present afterwards |
| `Database.SaveUser` | database.ts:88-99 | the users slot holds the upserted list (seeded first when empty) and the collections are untouched |
| `Database.SaveUserSession` | database.ts:101-105 | the session is rewritten with the saved user exactly when a parsable session names that user's id, and left as it was otherwise |
| `CollectorDashboard.Marketplace` | components/CollectorDashboard.tsx:47-49 | every listed record is from the list and `ANUNCIADA`, and every `ANUNCIADA` record is listed; with `MarketplaceOne` and `MarketplaceConcat`, each exactly once and in list order |
| `CollectorDashboard.MarketplaceOne` | components/CollectorDashboard.tsx:47-49 | a one-record list is listed exactly when its record is `ANUNCIADA` |
| `CollectorDashboard.MarketplaceConcat` | components/CollectorDashboard.tsx:47-49 | the marketplace keeps list order: it distributes over concatenation |
| `CollectorDashboard.ActiveRoute` | components/CollectorDashboard.tsx:51-53 | none exactly when no record is held by the user in `ACEITA`, `EM_ROTA` or `EM_COLETA`; otherwise the first such record |
| `CollectorDashboard.ConfirmationCode` | components/CollectorDashboard.tsx:65 | the code is six decimal digits whose value lies in [100000, 999999] |
| `CollectorDashboard.Accept` | components/CollectorDashboard.tsx:64-75 | status `ACEITA`, collector, acceptance time, expiry 45 minutes later and a six-digit code are set, and every other field is unchanged |
| `CollectorDashboard.Depart` | components/CollectorDashboard.tsx:79-81 | status `EM_ROTA` and `ts_em_rota` are set, nothing else changes |
| `CollectorDashboard.Abandon` | components/CollectorDashboard.tsx:83-84 | status `ANUNCIADA`, no collector, no acceptance time; the code and the marker are kept and nothing else changes |
| `CollectorDashboard.Distance` | components/CollectorDashboard.tsx:12-13 | `Infinity` exactly when a coordinate is NaN, otherwise the supplied great-circle distance |
| `CollectorDashboard.AutoArrival` | components/CollectorDashboard.tsx:25-62 | an update is issued exactly for a route in `EM_ROTA` with a position fix within 0.3 km, and it changes only the status, to `EM_COLETA` |
| `CollectorDashboard.AutoArrivalFiresOnce` | components/CollectorDashboard.tsx:55-62 | once the arrival update is applied it cannot fire again, whatever the next position |
| `CollectorDashboard.NaNNeverArrives` | components/CollectorDashboard.tsx:13 | a position with a NaN coordinate never triggers arrival |
| `AdvertiserView.MyCollections` | components/AdvertiserView.tsx:30-32 | exactly the records owned by the user |
| `AdvertiserView.MyCollectionsOne` | components/AdvertiserView.tsx:30-32 | a one-record list keeps its record exactly when the user owns it |
| `AdvertiserView.MyCollectionsConcat` | components/AdvertiserView.tsx:30-32 | the projection distributes over concatenation, so records keep their list order and their number of copies |
| `AdvertiserView.OrFallback` | components/AdvertiserView.tsx:60-61 | a missing fix or a fix of exactly 0 falls back; any other fix is kept |
| `AdvertiserView.Publish` | components/AdvertiserView.tsx:51-79 | the new record is `ANUNCIADA`, owned by the user, with no collector and no code, São Paulo, priority Média, the form's fields, the fallback coordinates, the stock photo when none was taken, and only the request time set |
| `AdvertiserView.SanitizeToken` | components/AdvertiserView.tsx:290-296 | the field holds at most six characters, all digits; an entry of at most six characters becomes exactly its digits, in order, and a short all-digit entry is kept as typed |
| `AdvertiserView.SanitizeTokenIgnoresTail` | components/AdvertiserView.tsx:290-296 | anything typed past the sixth character has no effect on the field |
| `AdvertiserView.Complete` | components/AdvertiserView.tsx:108 | status `CONCLUIDA` and `ts_concluida` are set, nothing else changes |
| `AdvertiserView.ValidateCode` | components/AdvertiserView.tsx:105-112 | an update is issued exactly when the dialog's record has a code equal to the trimmed input; it is that record completed and the dialog closes; otherwise the dialog is kept |
| `AdvertiserView.ValidateNeedsRecordAndCode` | components/AdvertiserView.tsx:106-111 | with no record selected, or a record without a code, nothing is issued and the dialog is kept |
| `AdvertiserView.ValidateTypedToken` | components/AdvertiserView.tsx:292-293 | for text typed through the field, validation succeeds exactly when the field equals the stored code |
| `NotificationCenter.Route` | components/NotificationCenter.tsx:24-88 | each of the five rules fires exactly under its condition: abandoned listing to its owner, new listing to every collector, acceptance and arrival to the owner, completion to the record's collector |
| `NotificationCenter.RouteSilent` | components/NotificationCenter.tsx:31-88 | `EM_ROTA`, `CANCELADA`, draft and scheduled records, and administrators never produce a notification |
| `NotificationCenter.CodeText` | components/NotificationCenter.tsx:71 | the code when present and non-empty, `---` otherwise |
| `NotificationCenter.Compose` | components/NotificationCenter.tsx:30-88 | the notification is unread and stamped now, its kind is the rule's, and the arrival message contains the code |
| `NotificationCenter.Push` | components/NotificationCenter.tsx:90-92 | the new entry is first, the earlier entries follow in order, and the list holds at most ten |
| `NotificationCenter.ProcessChange` | components/NotificationCenter.tsx:24-93 | an unrouted event leaves the list alone; a routed one pushes exactly the composed notification |
| `NotificationCenter.MarkAllRead` | components/NotificationCenter.tsx:127-143 | same entries, all read, and the unread count drops to zero |
| `NotificationCenter.ProcessChangeUnread` | components/NotificationCenter.tsx:90-127 | the list stays within ten; a routed event raises the badge by one while there is room and never by more than one |
| `AuthView.IsValidCpf` | components/AuthView.tsx:10-24 | the two summing loops accept exactly the CPFs with eleven digits, not all equal, and both mod-11 check digits right |
| `AuthView.ValidCpfIgnoresPunctuation` | components/AuthView.tsx:11 | formatting characters never change the verdict |
| `AuthView.RepeatedDigitsInvalid` | components/AuthView.tsx:12 | eleven copies of one digit are never valid |
| `AuthView.CheckDigit` | components/AuthView.tsx:15-16 | a check digit is a single decimal digit |
| `AuthView.NextStep` | components/AuthView.tsx:84-95 | BASIC moves only to IDENTITY, exactly when name, e-mail and password are given and the password has at least three characters; IDENTITY moves only to ADDRESS, exactly on a valid CPF and a phone of at least ten digits; a step is kept exactly when an error is shown, and the error is the first failing check's message |
| `AuthView.NextThenBack` | components/AuthView.tsx:84-95 | going back from the step just reached returns to the step left |
| `AuthView.Register` | components/AuthView.tsx:97-122 | refused with the address message exactly when street, number or postcode is empty; otherwise the account has the form's role and name, the lower-cased e-mail, the digits of phone and CPF and no face check |
| `AuthView.Login` | components/AuthView.tsx:65-73 | none exactly when no user matches on e-mail ignoring case and identical password; otherwise the first such user |
| `AuthView.RegisteredUserCanLogIn` | components/AuthView.tsx:65-124 | an account just registered and saved can sign in with the e-mail and password it was registered with |
| `Dashboard.ComputeStats` | components/Dashboard.tsx:25-32 | completed count, completed weight, distinct advertisers and distinct non-empty collectors, each bounded by the list length |
| `Dashboard.SumCompleted` | components/Dashboard.tsx:26 | summing the completed records' weights is summing all records with the others counted as zero |
| `Dashboard.MaterialData` | components/Dashboard.tsx:34-40 | one entry per material among completed records, in first-appearance order, each holding that material's completed weight, adding up to the completed total |
| `Dashboard.Conversion` | components/Dashboard.tsx:42-51 | the funnel starts at the record count, its middle stage is the number of records in ACEITA, EM_ROTA or CONCLUIDA (those in EM_COLETA are not counted), it never grows, and it ends at the completed count |
| `GeoAnalysis.FilteredCollections` | components/GeoAnalysisView.tsx:13-16 | `Todos` returns the list unchanged; any other value returns the records of that neighbourhood and no others; with `FilteredOne` and `FilteredConcat`, each exactly once and in list order |
| `GeoAnalysis.FilteredOne` | components/GeoAnalysisView.tsx:13-16 | a one-record list keeps its record exactly when the filter is `Todos` or names the record's neighbourhood |
| `GeoAnalysis.FilteredConcat` | components/GeoAnalysisView.tsx:13-16 | the filter keeps list order: it distributes over concatenation |
| `Tally.DedupeOrder` | components/GeoAnalysisView.tsx:19-20 | the distinct values of a `Set` come out in the order in which each first occurs in the list it was built from |
| `GeoAnalysis.Neighborhoods` | components/GeoAnalysisView.tsx:18-21 | `Todos` first, then each neighbourhood of the list exactly once and nothing else, ordered by where each first appears in the list |
| `Tally.SortTieOrdered` | components/GeoAnalysisView.tsx:33 | the descending sort is stable: elements of equal value keep the order they had in the input |
| `Tally.TopTies` | components/OperationalView.tsx:74 | sorting then `slice(0, n)` keeps entries of equal value in input order, and an entry left out comes after every kept entry of the same value |
| `GeoAnalysis.TopNeighborhoods` | components/GeoAnalysisView.tsx:23-35 | one row per distinct neighbourhood up to three (as many rows as neighbourhoods when fewer), each named by a neighbourhood occurring in the list, no name twice, heaviest first, each weight the neighbourhood's total, each percentage its share of the overall weight (0 when that is not positive), no neighbourhood left out is heavier than one shown, rows of equal weight come in the order their neighbourhoods first occur in the list, and a neighbourhood left out with a shown row's weight first occurs after it |
| `Tally.Percent` | components/GeoAnalysisView.tsx:32 | 0 for a non-positive whole; otherwise the percentage times the whole is the part, and a part within the whole gives a value in [0, 100] |
| `Operational.StatusCountsAt` | components/OperationalView.tsx:13-27 | each of the five tracked statuses holds its record count; any other status appears exactly when some record has it, and then holds NaN |
| `Operational.AvgResponseTime` | components/OperationalView.tsx:30-43 | 0 without samples; otherwise within half a minute of the mean lead time over the records that have both instants |
| `Operational.CriticalMeansOverdue` | components/OperationalView.tsx:37-40 | a record is critical exactly when it is `ANUNCIADA`, has a request time, and is more than 7,200,000 ms old |
| `Operational.CriticalCount` | components/OperationalView.tsx:37-40 | the number of waiting listings whose request is more than 7,200,000 ms old; hence never more than the waiting listings, and zero exactly when no record is critical |
| `Operational.CompletionRate` | components/OperationalView.tsx:44-46 | 0 for an empty list, otherwise the completed share of all records as a percentage, always within [0, 100] |
| `Operational.Bottlenecks` | components/OperationalView.tsx:59-75 | one entry per distinct neighbourhood up to four (all of them when fewer), each keyed by a neighbourhood occurring in the list, no neighbourhood twice, most waiting first, each holding its waiting count, none left out has more waiting than one kept, entries of equal count come in the order their neighbourhoods first occur in the list, and a neighbourhood left out with a kept entry's count first occurs after it |
| `Operational.PendingCounts` | components/OperationalView.tsx:62-63 | a neighbourhood's tallied value is the number of its `ANUNCIADA` records |
| `Layout.MenuIsFilter` | components/Layout.tsx:38-50 | the menu is the eleven entries filtered on whether their roles include the user's, in declaration order |
| `Layout.AdminMenu` | components/Layout.tsx:38-50 | the administrator sees all eleven entries |
| `Layout.NoAuthTab` | components/Layout.tsx:38-50 | no role's menu offers the sign-in tab |
| `Layout.AdvertiserMenu` | components/Layout.tsx:40-44 | an advertiser sees exactly `advertiser` and `gamification` |
| `Layout.CollectorMenu` | components/Layout.tsx:42-44 | a collector sees exactly `geo` and `gamification`, and the map entry reads "Minhas Rotas" |
| `Layout.HeaderTitle` | components/Layout.tsx:120 | none exactly when the tab is not in the user's menu; otherwise the label of a visible entry with that id |
| `App.DefaultTabForRole` | App.tsx:29-36 | `auth` exactly for an unknown role name; a known role lands on the first tab of its own menu (overview, advertiser, geo), and no menu offers `auth` |
| `App.ContentForRole` | App.tsx:126-130 | the home screen is the administrator dashboard, the advertiser view or the collector dashboard, one per role |
| `App.RenderGates` | App.tsx:85-102 | loading shows the loading screen, no session shows sign-in, a non-admin without the face check shows face verification, whatever the tab; otherwise the tab's screen |
| `App.AdminScreensNeedAdmin` | App.tsx:113-120 | no tab shows a non-administrator an administrator's screen |
| `App.AdminTabsFallBack` | App.tsx:113-120 | an administrator's tab shows the administrator an administrator's screen and anyone else the role's home screen |
| `App.UnknownTabShowsHome` | App.tsx:112-123 | any tab other than the administrator's, `advertiser`, `geo` and `gamification` shows the role's home screen |
| `App.DefaultTabShowsHome` | App.tsx:29-130 | every role's landing tab shows that role's home screen |
| `App.CollectorScreen` | App.tsx:116-128 | the collector dashboard is shown only to collectors, and always on `geo` |
| `Lifecycle.UpsertKeepsClean` | database.ts:41-50 | a stored list free of the marker stays free of it after any save |
| `Lifecycle.DetachedAcceptIsLost` | App.tsx:116 | as wired, an accepted listing's save fails, storage is unchanged and the listing is still on the marketplace |
| `Lifecycle.ServiceAcceptLeavesMarket` | database.ts:39-57 | saved on the service object, the accepted listing is stored and no marketplace card carries its id |
| `Lifecycle.AcceptLeavesMarket` | components/CollectorDashboard.tsx:47-75 | once an accepted record is saved no marketplace card carries its id |
| `Lifecycle.AcceptBecomesRoute` | components/CollectorDashboard.tsx:51-75 | for a collector holding no route, the saved acceptance becomes the active route |
| `Lifecycle.AbandonThenSave` | components/CollectorDashboard.tsx:47-84 | once an abandoned record is saved it is back on the marketplace with no collector and its code intact |
| `Lifecycle.AbandonAnnouncedAsNew` | components/NotificationCenter.tsx:31-52 | the abandon event is never routed to the owner as an abandonment, and reaches exactly the collectors as a new listing |
| `Lifecycle.ConfirmSkipsArrival` | components/AdvertiserView.tsx:105-160 | right after acceptance the validation button is offered, and the stored code completes the record |
| `Lifecycle.Step` | components/CollectorDashboard.tsx:64-138 | a step happens exactly when the screens offer its action, and never changes the record's id or owner |
| `Lifecycle.ArrivalIsAutoArrival` | components/CollectorDashboard.tsx:55-62 | whenever the position effect fires, its update is the arrival step |
| `Lifecycle.PublishConsistent` | components/AdvertiserView.tsx:63-79 | a published record is listed with no collector |
| `Lifecycle.StepPreserves` | components/CollectorDashboard.tsx:64-87 | steps only produce the five used statuses, and keep "a record in progress has a collector and a code; a listing has no collector" |
| `Lifecycle.CompletedIsFinal` | components/AdvertiserView.tsx:152-160 | no action is offered on a completed record |
| `Lifecycle.AbandonLeavesCode` | components/CollectorDashboard.tsx:84 | an abandoned consistent record is listed again and still holds its code |
| `Text.ParseNatToString` | components/CollectorDashboard.tsx:65 | a number's decimal rendering parses back to the number |
| `Text.Trim` | components/AdvertiserView.tsx:107 | the result is a slice of the input with no surrounding whitespace, everything cut being whitespace |
| `Text.TrimDigits` | components/AdvertiserView.tsx:107 | a digit string is its own trim |
| `Text.DigitsOnly` | components/AuthView.tsx:11 | the result is all digits, no longer than the input, contains a character exactly when the input contains it as a digit, and an all-digit input is unchanged |
| `Text.DigitsOnlyChar` | components/AuthView.tsx:11 | a single character is kept exactly when it is a digit |
| `Text.DigitsOnlyConcat` | components/AuthView.tsx:11 | the digits of a concatenation are the digits of each part in order, which with the one-character case fixes the result |
| `Text.Lower` | components/AuthView.tsx:71 | same length, each character lower-cased |
| `Text.BeforeFirst` | components/AuthView.tsx:107 | the longest prefix without `@`, followed in the input by `@` when shorter |

## Left out

- Browser storage, JSON encoding, `window` change events and `storage` events are not modelled as I/O. Storage is a `Database.Storage` value, and a stored empty string reads like a missing key, as `!saved` does.
- The `subscribeToCollections` call in App.tsx has no definition in database.ts, so there is no notifier to model. Calling the missing method throws in the router's mount effect; the model does not follow that failure and takes the router to render as its code describes.
- Concurrency is not modelled. `saveCollection` is an unguarded read-modify-write and accept does not re-check the status, so no double-claim prevention is claimed.
- `ts_expiracao` is set but nothing enforces it, so no expiry sweep is modelled.
- Geolocation watching and the haversine trigonometry are left out. The formula is a function parameter, and a position is a pair of `JsNum` values.
- The clock, `Math.random` and the `Date.now`/`Math.random` identifiers are parameters. All `new Date()` calls within one handler are treated as one instant `now`.
- Timestamps are integer milliseconds. The ISO-8601 strings and their parsing are left out.
- `AdvertiserView.Publish` takes `weight` as a real. `Number()` on a non-numeric form field (NaN) is left out.
- Image capture and compression, the CEP address lookup and the Gemini calls are external I/O and are left out.
- The `toFixed(1)` rendering of percentages and the map-pin position arithmetic are left out. `Operational.CompletionRate` is the number before formatting.
- `Operational.Bottlenecks` does not model each neighbourhood's mean response time (`avgTime`), because that is a rounded float shown beside the count and not used in the ordering.
- `GeoAnalysis.TopNeighborhoods` computes the percentage after sorting. The source computes it before, but sorting and truncation do not change it.
- `Tally` keeps object keys in first-insertion order. JavaScript lists integer-like keys (such as a neighbourhood named "12") first, in numeric order; that is not modelled.
- `Text.Lower` lower-cases ASCII and Latin-1 letters only. `Text.Trim` strips ASCII whitespace, no-break space, the byte-order mark and the line and paragraph separators, not every Unicode space.
- Strings are sequences of characters rather than UTF-16 code units, so `maxLength` and `length` are counted in characters.
- Profile-only optional user fields (public name, bio, photo, gender, company, vehicle, last position) are omitted. No modelled operation reads them.
- The optional pickup fields no modelled operation reads or writes are omitted from `CollectionData`: title, description, final weight, suggested and final price, photo gallery, collector name, scheduled time, notes and the archive flag.
- The notification `id` (`notif-` followed by the clock reading) is omitted. It only keys the rendered list.
- UI state is left out: view mode, modals, loading flags, error banners and the sidebar.
- The notification panel's storage-event handler, which re-reads the list and picks the latest record, is left out with the storage events.
- `Layout.HeaderTitle` returns none for a tab outside the menu, which the page renders as an empty heading.
- `Lifecycle.Step`: the arrival action abstracts the distance test. `Lifecycle.ArrivalIsAutoArrival` ties it to the position effect whenever the effect fires.
- Static screens are left out: the advice panel, business rules, integration, gamification and reports content, the constants file, and all rendering and charts.
- `setSession` and `clearDatabase` are plain storage writes and are not modelled.

## Findings

| source | as written | input that shows it | evidently intended | confidence | as-written member | corrected member |
|---|---|---|---|---|---|---|
| App.tsx:116 | The router passes `DatabaseService.saveCollection` itself as the screens' `onUpdate` / `onAdd`. The screens call it bare, and `saveCollection` starts with `this.getCollections()` (database.ts:40). | A collector presses "accept" on any marketplace card: the call throws a TypeError, the returned promise rejects, nothing is stored and no change event fires. The same holds for depart, arrival, abandon, publish and code validation. | The save runs on the service object (for example `onUpdate={c => DatabaseService.saveCollection(c)}`), storing the step and dispatching its event. | high; not executed | `Lifecycle.DetachedAcceptIsLost` | `Lifecycle.ServiceAcceptLeavesMarket` |

=== FILE: advertiser.dfy ===
/** The advertiser's side of the lifecycle (`AdvertiserView`): publishing a
    record, the "my collections" projection, the handshake-code dialog and
    the digits-only token field. */
module AdvertiserView {
  import opened Wrappers
  import opened Types
  import Text
  import Seqs

  /** Latitude and longitude of the São Paulo fallback location. */
  const FallbackLat: real := -23.5505
  const FallbackLng: real := -46.6333

  const DefaultCity: string := "São Paulo"
  const DefaultPhotoUrl: string := "https://images.unsplash.com/photo-1532996122724-e3c354a0b15b?auto=format&fit=crop&w=400"

  /** The token field's `maxLength`. */
  const TokenLength: nat := 6

  /** The fields the publish form submits. */
  datatype PublishForm = PublishForm(material: Material, weight: real, neighborhood: string, address: string)

  /** The advertiser's profile as shown on a published record. */
  datatype Profile = Profile(name: string, image: string)

  predicate OwnedBy(c: CollectionData, userId: string) {
    c.idAnunciante == userId
  }

  function Owns(userId: string): CollectionData -> bool {
    (c: CollectionData) => OwnedBy(c, userId)
  }

  /** `myCollections`: the user's own records, in list order. */
  function MyCollections(cs: seq<CollectionData>, userId: string): (r: seq<CollectionData>)
    ensures forall i :: 0 <= i < |r| ==> r[i] in cs && r[i].idAnunciante == userId
    ensures forall i :: 0 <= i < |cs| && cs[i].idAnunciante == userId ==> cs[i] in r
  {
    Seqs.Filter(cs, Owns(userId))
  }

  /** A single record is listed exactly when the user owns it. */
  lemma MyCollectionsOne(c: CollectionData, userId: string)
    ensures MyCollections([c], userId) == if c.idAnunciante == userId then [c] else []
  {
    assert [c][1..] == [];
  }

  /** The projection of a concatenation is the concatenation of the
      projections; with `MyCollectionsOne` this fixes the order and the
      number of copies of every record kept. */
  lemma MyCollectionsConcat(a: seq<CollectionData>, b: seq<CollectionData>, userId: string)
    ensures MyCollections(a + b, userId) == MyCollections(a, userId) + MyCollections(b, userId)
  {
    Seqs.FilterConcat(a, b, Owns(userId));
  }

  /** `coords?.lat || fallback`: a missing fix, or a fix of exactly 0,
      falls back. */
  function OrFallback(fix: Option<real>, fallback: real): (r: real)
    ensures (fix.Some? && fix.value != 0.0) ==> r == fix.value
    ensures (fix.None? || fix.value == 0.0) ==> r == fallback
  {
    if fix.Some? && fix.value != 0.0 then fix.value else fallback
  }

  function FixLat(gps: Option<(real, real)>): Option<real> {
    if gps.Some? then Some(gps.value.0) else None
  }

  function FixLng(gps: Option<(real, real)>): Option<real> {
    if gps.Some? then Some(gps.value.1) else None
  }

  /** `handlePublish`: the record a submitted form creates. The id is
      `COL-` followed by the clock reading, and a missing or empty item
      photo is replaced by the stock photo. */
  function Publish(form: PublishForm, userId: string, profile: Profile, gps: Option<(real, real)>,
                   itemImage: Option<string>, now: nat): (r: CollectionData)
    ensures r.id == "COL-" + Text.NatToString(now)
    ensures r.status == Anunciada && r.idAnunciante == userId
    ensures r.idColetor.None? && r.codigoConfirmacao.None? && !r.abandoned
    ensures r.city == DefaultCity && r.prioridade == Media
    ensures r.material == form.material && r.weight == form.weight
            && r.neighborhood == form.neighborhood && r.address == form.address
    ensures r.companyName == profile.name && r.companyAvatar == profile.image
    ensures (gps.None? || gps.value.0 == 0.0) ==> r.lat == FallbackLat
    ensures (gps.Some? && gps.value.0 != 0.0) ==> r.lat == gps.value.0
    ensures (gps.None? || gps.value.1 == 0.0) ==> r.lng == FallbackLng
    ensures (gps.Some? && gps.value.1 != 0.0) ==> r.lng == gps.value.1
    ensures r.fotoItemUrl == Some(if Truthy(itemImage) then itemImage.value else DefaultPhotoUrl)
    ensures r.tsSolicitada == Some(now)
    ensures r.tsAceita.None? && r.tsEmRota.None? && r.tsExpiracao.None? && r.tsConcluida.None?
  {
    CollectionData(
      id := "COL-" + Text.NatToString(now),
      idAnunciante := userId,
      idColetor := None,
      status := Anunciada,
      material := form.material,
      weight := form.weight,
      neighborhood := form.neighborhood,
      city := DefaultCity,
      address := form.address,
      lat := OrFallback(FixLat(gps), FallbackLat),
      lng := OrFallback(FixLng(gps), FallbackLng),
      companyName := profile.name,
      companyAvatar := profile.image,
      fotoItemUrl := Some(if Truthy(itemImage) then itemImage.value else DefaultPhotoUrl),
      codigoConfirmacao := None,
      tsSolicitada := Some(now),
      tsAceita := None,
      tsEmRota := None,
      tsExpiracao := None,
      tsConcluida := None,
      prioridade := Media,
      abandoned := false)
  }

  /** The token field's `onChange`: the browser caps the text at
      `maxLength` characters and the handler keeps only its digits. */
  function SanitizeToken(raw: string): (r: string)
    ensures Text.AllDigits(r) && |r| <= TokenLength
    ensures Text.AllDigits(raw) && |raw| <= TokenLength ==> r == raw
    ensures |raw| <= TokenLength ==> r == Text.DigitsOnly(raw)
  {
    Text.DigitsOnly(if |raw| <= TokenLength then raw else raw[..TokenLength])
  }

  /** Whatever is typed past the sixth character is cut off before the
      digits are taken. */
  lemma SanitizeTokenIgnoresTail(head: string, rest: string)
    requires |head| == TokenLength
    ensures SanitizeToken(head + rest) == SanitizeToken(head)
  {
    if rest == [] {
      assert head + rest == head;
    } else {
      assert (head + rest)[..TokenLength] == head;
    }
  }

  /** The validation dialog: which record it is open for, and the text
      typed so far. */
  datatype Dialog = Dialog(confirmingId: Option<string>, input: string)

  /** The completed record: status `CONCLUIDA` and its completion time. */
  function Complete(c: CollectionData, now: int): (r: CollectionData)
    ensures r.status == Concluida && r.tsConcluida == Some(now)
    ensures r.(status := c.status, tsConcluida := c.tsConcluida) == c
  {
    c.(status := Concluida, tsConcluida := Some(now))
  }

  function DialogRecord(cs: seq<CollectionData>, dialog: Dialog): Option<CollectionData> {
    Seqs.Find(cs, (c: CollectionData) => Some(c.id) == dialog.confirmingId)
  }

  /** `validateCode`: when the dialog's record carries a code equal to the
      trimmed input, issue the completed record and close the dialog;
      otherwise issue nothing and leave the dialog as it is. */
  function ValidateCode(cs: seq<CollectionData>, dialog: Dialog, now: int): (r: (Option<CollectionData>, Dialog))
    ensures var col := DialogRecord(cs, dialog);
            r.0.Some? <==> col.Some? && col.value.codigoConfirmacao == Some(Text.Trim(dialog.input))
    ensures var col := DialogRecord(cs, dialog);
            r.0.Some? ==> Some(r.0.value.id) == dialog.confirmingId && r.0.value == Complete(col.value, now)
                          && r.1 == Dialog(None, "")
    ensures r.0.None? ==> r.1 == dialog
  {
    var col := DialogRecord(cs, dialog);
    if col.Some? && col.value.codigoConfirmacao == Some(Text.Trim(dialog.input)) then
      (Some(Complete(col.value, now)), Dialog(None, ""))
    else (None, dialog)
  }

  /** A dialog that is not open for any record never completes anything,
      and neither does a record without a code. */
  lemma ValidateNeedsRecordAndCode(cs: seq<CollectionData>, dialog: Dialog, now: int)
    requires dialog.confirmingId.None?
             || (DialogRecord(cs, dialog).Some? && DialogRecord(cs, dialog).value.codigoConfirmacao.None?)
    ensures ValidateCode(cs, dialog, now) == (None, dialog)
  {
  }

  /** A token typed through the field needs no trimming: the code the
      collector reads out is accepted exactly when it equals the field. */
  lemma ValidateTypedToken(cs: seq<CollectionData>, id: string, raw: string, now: int)
    ensures var dialog := Dialog(Some(id), SanitizeToken(raw));
            var col := DialogRecord(cs, dialog);
            ValidateCode(cs, dialog, now).0.Some?
            <==> col.Some? && col.value.codigoConfirmacao == Some(SanitizeToken(raw))
  {
    Text.TrimDigits(SanitizeToken(raw));
  }

  /** The "Validar Token" button is offered while a collector holds the
      record: accepted, on the way, or arrived. */
  predicate ValidateOffered(c: CollectionData) {
    c.status == Aceita || c.status == EmRota || c.status == EmColeta
  }
}

=== FILE: app.dfy ===
/** The top-level router (`App`): the landing tab of each role and the
    screen shown for the session state and the active tab. */
module App {
  import opened Wrappers
  import opened Types
  import Layout

  /** `getDefaultTabForRole`: the tab a user lands on after signing in.
      Each known role lands on the first tab of its own menu; any other role name
      lands on "auth", which no menu offers. */
  function DefaultTabForRole(role: string): (r: string)
    ensures r == "auth" <==> (forall rl: Role :: role != RoleName(rl))
    ensures forall rl: Role :: role == RoleName(rl) ==> r in Layout.MenuIds(rl)
    ensures forall rl: Role :: role == RoleName(rl) ==> |Layout.MenuIds(rl)| > 0 && r == Layout.MenuIds(rl)[0]
    ensures forall rl: Role :: "auth" !in Layout.MenuIds(rl)
  {
    Layout.NoAuthTab();
    if role == "ADMIN" then
      Layout.AdminMenu();
      assert role == RoleName(Admin);
      assert forall rl: Role :: role == RoleName(rl) <==> rl == Admin;
      "overview"
    else if role == "ADVERTISER" then
      Layout.AdvertiserMenu();
      assert role == RoleName(Advertiser);
      assert forall rl: Role :: role == RoleName(rl) <==> rl == Advertiser;
      "advertiser"
    else if role == "COLLECTOR" then
      Layout.CollectorMenu();
      assert role == RoleName(Collector);
      assert forall rl: Role :: role == RoleName(rl) <==> rl == Collector;
      "geo"
    else "auth"
  }

  /** The screens the router can show. */
  datatype View =
    | Loading
    | AuthView
    | FacialVerification
    | DashboardView
    | OperationalView
    | AdvertiserView
    | GeoAnalysisView
    | CollectorDashboard
    | ReportsView
    | BusinessRulesView
    | IntegrationView
    | AdvicePanel
    | GamificationView

  /** Screens only the `isAdmin` branches lead to. */
  predicate AdminOnly(v: View) {
    v == DashboardView || v == OperationalView || v == ReportsView
    || v == BusinessRulesView || v == IntegrationView || v == AdvicePanel
  }

  /** `renderContentForRole`: the home screen of each role. */
  function ContentForRole(role: Role): (r: View)
    ensures role == Admin <==> r == DashboardView
    ensures role == Advertiser <==> r == AdvertiserView
    ensures role == Collector <==> r == CollectorDashboard
  {
    match role
    case Advertiser => AdvertiserView
    case Collector => CollectorDashboard
    case Admin => DashboardView
  }

  /** `renderContent`: the screen for the active tab. The administrator's
      tabs fall back to the role's home screen for anyone else; the "geo"
      tab is the collector's route screen for a collector and the map for
      everyone else; "advertiser" and "gamification" have no role check;
      any other tab, "partners" and "guide" included, is the home screen. */
  function Content(role: Role, tab: string): View {
    var isAdmin := role == Admin;
    if tab == "overview" then (if isAdmin then DashboardView else ContentForRole(role))
    else if tab == "operational" then (if isAdmin then OperationalView else ContentForRole(role))
    else if tab == "advertiser" then AdvertiserView
    else if tab == "geo" then (if role == Collector then CollectorDashboard else GeoAnalysisView)
    else if tab == "reports" then (if isAdmin then ReportsView else ContentForRole(role))
    else if tab == "rules" then (if isAdmin then BusinessRulesView else ContentForRole(role))
    else if tab == "integration" then (if isAdmin then IntegrationView else ContentForRole(role))
    else if tab == "datamodel" then (if isAdmin then AdvicePanel else ContentForRole(role))
    else if tab == "gamification" then GamificationView
    else ContentForRole(role)
  }

  /** The whole router: the loading screen while the store is read, the
      sign-in screen without a session, the face check for a non-admin who
      has not passed it, and the tab's screen otherwise. */
  function Render(loading: bool, user: Option<User>, tab: string): View {
    if loading then Loading
    else if user.None? then AuthView
    else if user.value.role != Admin && !user.value.faceVerified then FacialVerification
    else Content(user.value.role, tab)
  }

  /** The gates come first, in order: loading, then session, then face
      check; a screen of the content is shown exactly when all three pass. */
  lemma RenderGates(loading: bool, user: Option<User>, tab: string)
    ensures Render(loading, user, tab) == Loading <==> loading
    ensures Render(loading, user, tab) == AuthView <==> !loading && user.None?
    ensures Render(loading, user, tab) == FacialVerification <==>
      !loading && user.Some? && user.value.role != Admin && !user.value.faceVerified
    ensures !loading && user.Some? && (user.value.role == Admin || user.value.faceVerified) ==>
      Render(loading, user, tab) == Content(user.value.role, tab)
  {
  }

  /** Nobody but the administrator reaches an administrator's screen,
      whatever the active tab. */
  lemma AdminScreensNeedAdmin(role: Role, tab: string)
    requires role != Admin
    ensures !AdminOnly(Content(role, tab))
  {
  }

  /** The administrator's tabs. */
  predicate AdminTab(tab: string) {
    tab == "overview" || tab == "operational" || tab == "reports"
    || tab == "rules" || tab == "integration" || tab == "datamodel"
  }

  /** The administrator's tabs show their own screen to the administrator
      and the role's home screen to anyone else. */
  lemma AdminTabsFallBack(role: Role, tab: string)
    requires AdminTab(tab)
    ensures role == Admin ==> AdminOnly(Content(role, tab))
    ensures role != Admin ==> Content(role, tab) == ContentForRole(role)
  {
  }

  /** A tab the router does not know, "partners" and "guide" among them,
      shows the role's home screen. */
  lemma UnknownTabShowsHome(role: Role, tab: string)
    requires !AdminTab(tab) && tab != "advertiser" && tab != "geo" && tab != "gamification"
    ensures Content(role, tab) == ContentForRole(role)
  {
  }

  /** The landing tab of each role shows that role's home screen. */
  lemma DefaultTabShowsHome(role: Role)
    ensures Content(role, DefaultTabForRole(RoleName(role))) == ContentForRole(role)
  {
  }

  /** The collector's route screen is shown exactly on the "geo" tab or,
      as the home screen, on a tab without a screen of its own. */
  lemma CollectorScreen(role: Role, tab: string)
    ensures Content(role, tab) == CollectorDashboard ==> role == Collector
    ensures role == Collector && tab == "geo" ==> Content(role, tab) == CollectorDashboard
  {
  }
}

=== FILE: auth.dfy ===
/** Sign-in and registration (`AuthView`): the CPF check-digit test of the
    Receita Federal scheme, the three-step registration form, the address
    guard on submission and the credential match on login. */
module AuthView {
  import opened Wrappers
  import opened Types
  import Text
  import Seqs
  import Database

  /** Σ_{i=1..k} d_i·(n + 2 − i): the weighted sum behind the check digit
      at position n + 1, taken over the first k digits. */
  function WeightedSum(d: string, n: nat, k: nat): int
    requires k <= n <= |d| && Text.AllDigits(d)
  {
    if k == 0 then 0 else WeightedSum(d, n, k - 1) + Text.DigitValue(d[k - 1]) * (n + 2 - k)
  }

  /** The check digit for position n + 1: ten times the weighted sum of the
      first n digits, modulo 11, with 10 read as 0. */
  function CheckDigit(d: string, n: nat): (r: nat)
    requires n <= |d| && Text.AllDigits(d)
    ensures r <= 9
  {
    var rev := (WeightedSum(d, n, n) * 10) % 11;
    if rev == 10 || rev == 11 then 0 else rev
  }

  predicate AllSame(d: string) {
    forall i :: 0 <= i < |d| ==> d[i] == d[0]
  }

  /** A valid CPF: eleven digits once everything else is stripped, not all
      the same digit, and both check digits right. */
  predicate ValidCpf(cpf: string) {
    var d := Text.DigitsOnly(cpf);
    && |d| == 11
    && !AllSame(d)
    && CheckDigit(d, 9) == Text.DigitValue(d[9])
    && CheckDigit(d, 10) == Text.DigitValue(d[10])
  }

  /** `isValidCPF`, with its two summing loops and early rejections. */
  method IsValidCpf(cpf: string) returns (ok: bool)
    ensures ok <==> ValidCpf(cpf)
  {
    var d := Text.DigitsOnly(cpf);
    if |d| != 11 || AllSame(d) {
      return false;
    }
    var sum := 0;
    var i := 1;
    while i <= 9
      invariant 1 <= i <= 10
      invariant sum == WeightedSum(d, 9, i - 1)
    {
      sum := sum + Text.DigitValue(d[i - 1]) * (11 - i);
      i := i + 1;
    }
    var rev := (sum * 10) % 11;
    if rev == 10 || rev == 11 {
      rev := 0;
    }
    if rev != Text.DigitValue(d[9]) {
      return false;
    }
    sum := 0;
    i := 1;
    while i <= 10
      invariant 1 <= i <= 11
      invariant sum == WeightedSum(d, 10, i - 1)
    {
      sum := sum + Text.DigitValue(d[i - 1]) * (12 - i);
      i := i + 1;
    }
    rev := (sum * 10) % 11;
    if rev == 10 || rev == 11 {
      rev := 0;
    }
    if rev != Text.DigitValue(d[10]) {
      return false;
    }
    return true;
  }

  /** Formatting characters never decide validity: a CPF and its digits
      alone are judged alike. */
  lemma ValidCpfIgnoresPunctuation(cpf: string)
    ensures ValidCpf(cpf) <==> ValidCpf(Text.DigitsOnly(cpf))
  {
  }

  /** Eleven copies of one digit are never a valid CPF, whatever its check
      digits. */
  lemma RepeatedDigitsInvalid(d: string, c: char)
    requires Text.IsDigit(c) && |d| == 11
    requires forall i :: 0 <= i < |d| ==> d[i] == c
    ensures !ValidCpf(d)
  {
    assert Text.AllDigits(d);
    assert Text.DigitsOnly(d) == d;
    assert AllSame(d);
  }

  datatype RegisterStep = Basic | Identity | Address

  /** The registration form's fields. */
  datatype RegisterForm = RegisterForm(
    name: string, email: string, password: string, role: Role, phone: string, cpf: string,
    cep: string, rua: string, numero: string, bairro: string, cidade: string, estado: string)

  const MissingBasicFields: string := "Preencha todos os campos fundamentais."
  const WeakPassword: string := "A senha deve ser mais forte."
  const InvalidCpf: string := "Formato de CPF inválido."
  const InvalidPhone: string := "Informe um número de telefone real."
  const MissingAddress: string := "Endereço é vital para a logística NUMATU."

  /** `handleNextStep`: the step after pressing "next", and the error shown
      (none when the step advances). */
  function NextStep(step: RegisterStep, f: RegisterForm): (r: (RegisterStep, Option<string>))
    ensures step == Basic ==>
      (r.0 == Identity <==> f.name != "" && f.email != "" && f.password != "" && |f.password| >= 3)
    ensures step == Identity ==>
      (r.0 == Address <==> ValidCpf(f.cpf) && |Text.DigitsOnly(f.phone)| >= 10)
    ensures step == Address ==> r == (Address, None)
    ensures step != Address ==> (r.0 == step <==> r.1.Some?)
    ensures step == Basic ==> r.0 == Basic || r.0 == Identity
    ensures step == Identity ==> r.0 == Identity || r.0 == Address
    ensures step == Basic && (f.name == "" || f.email == "" || f.password == "") ==>
      r.1 == Some(MissingBasicFields)
    ensures step == Basic && f.name != "" && f.email != "" && f.password != "" && |f.password| < 3 ==>
      r.1 == Some(WeakPassword)
    ensures step == Identity && !ValidCpf(f.cpf) ==> r.1 == Some(InvalidCpf)
    ensures step == Identity && ValidCpf(f.cpf) && |Text.DigitsOnly(f.phone)| < 10 ==>
      r.1 == Some(InvalidPhone)
  {
    match step
    case Basic =>
      if f.name == "" || f.email == "" || f.password == "" then (Basic, Some(MissingBasicFields))
      else if |f.password| < 3 then (Basic, Some(WeakPassword))
      else (Identity, None)
    case Identity =>
      if !ValidCpf(f.cpf) then (Identity, Some(InvalidCpf))
      else if |Text.DigitsOnly(f.phone)| < 10 then (Identity, Some(InvalidPhone))
      else (Address, None)
    case Address => (Address, None)
  }

  /** The back arrow: the previous step, or none for leaving the form for
      the login screen. */
  function PreviousStep(step: RegisterStep): Option<RegisterStep> {
    match step
    case Basic => None
    case Identity => Some(Basic)
    case Address => Some(Identity)
  }

  /** Going forward from a step and back again returns to the step. */
  lemma NextThenBack(step: RegisterStep, f: RegisterForm)
    requires NextStep(step, f).1.None? && step != Address
    ensures PreviousStep(NextStep(step, f).0) == Some(step)
  {
  }

  /** `handleRegister`: the new account, or the address error when street,
      number or postcode is empty. `id` is the random identifier. */
  function Register(f: RegisterForm, id: string): (r: Result<User, string>)
    ensures r.Failure? <==> f.rua == "" || f.numero == "" || f.cep == ""
    ensures r.Failure? ==> r.error == MissingAddress
    ensures r.Success? ==>
      && r.value.id == id && r.value.role == f.role && r.value.name == f.name
      && r.value.email == Text.Lower(f.email) && r.value.password == Some(f.password)
      && r.value.username == Text.BeforeFirst(f.email, '@')
      && !r.value.faceVerified
      && r.value.telefone == Some(Text.DigitsOnly(f.phone)) && r.value.cpf == Some(Text.DigitsOnly(f.cpf))
  {
    if f.rua == "" || f.numero == "" || f.cep == "" then Failure(MissingAddress)
    else Success(User(
      id := id, username := Text.BeforeFirst(f.email, '@'), email := Text.Lower(f.email), name := f.name,
      role := f.role, isProfileComplete := true, isActive := true,
      emailVerificado := true, telefoneVerificado := true, cpfVerificado := true,
      enderecoVerificado := true, faceVerified := false,
      password := Some(f.password), telefone := Some(Text.DigitsOnly(f.phone)),
      cpf := Some(Text.DigitsOnly(f.cpf)), cep := Some(f.cep), rua := Some(f.rua), numero := Some(f.numero),
      bairro := Some(f.bairro), cidade := Some(f.cidade), estado := Some(f.estado)))
  }

  predicate Matches(u: User, email: string, password: string) {
    Text.Lower(u.email) == Text.Lower(email) && u.password == Some(password)
  }

  /** `handleLogin`: the first user whose e-mail matches ignoring case and
      whose password is identical. */
  function Login(users: seq<User>, email: string, password: string): (r: Option<User>)
    ensures r.None? <==> forall i :: 0 <= i < |users| ==> !Matches(users[i], email, password)
    ensures r.Some? ==> r.value in users && Matches(r.value, email, password)
    ensures r.Some? ==> exists i :: Seqs.FirstAt(users, u => Matches(u, email, password), i) && users[i] == r.value
  {
    Seqs.Find(users, u => Matches(u, email, password))
  }

  lemma {:induction false} LowerIdempotent(s: string)
    ensures Text.Lower(Text.Lower(s)) == Text.Lower(s)
  {
    var l := Text.Lower(s);
    assert forall i :: 0 <= i < |s| ==> Text.LowerChar(l[i]) == l[i];
  }

  /** An account just registered and saved can sign in with the e-mail and
      password it was registered with. */
  lemma RegisteredUserCanLogIn(users: seq<User>, f: RegisterForm, id: string)
    requires Register(f, id).Success?
    ensures Login(Database.UpsertUser(users, Register(f, id).value), f.email, f.password).Some?
  {
    var u := Register(f, id).value;
    var us := Database.UpsertUser(users, u);
    LowerIdempotent(f.email);
    assert Matches(u, f.email, f.password);
    var k :| 0 <= k < |us| && us[k].id == u.id;
    assert us[k] == u;
  }
}

=== FILE: collector.dfy ===
/** The collector's side of the pickup lifecycle (`CollectorDashboard`):
    the marketplace and active-route projections, the accept, depart and
    abandon handlers, and the proximity-triggered arrival. The handlers are
    record-to-record updates and do not look at the current status; which
    of them can be reached is decided by the buttons the screen offers,
    modelled as separate predicates. */
module CollectorDashboard {
  import opened Wrappers
  import opened Types
  import Text
  import Seqs

  /** Arrival radius in kilometres. */
  const ArrivalRadiusKm: real := 0.3

  /** Length of the acceptance window: 45 minutes in milliseconds. */
  const ExpirationWindowMs: int := 45 * 60 * 1000

  /** The statuses in which a collector holds a record as its route. */
  predicate InRoute(s: Status) {
    s == Aceita || s == EmRota || s == EmColeta
  }

  predicate IsListed(c: CollectionData) {
    c.status == Anunciada
  }

  /** `marketplaceItems`: the announced records, in list order. */
  function Marketplace(cs: seq<CollectionData>): (r: seq<CollectionData>)
    ensures forall i :: 0 <= i < |r| ==> r[i] in cs && r[i].status == Anunciada
    ensures forall i :: 0 <= i < |cs| && cs[i].status == Anunciada ==> cs[i] in r
  {
    Seqs.Filter(cs, IsListed)
  }

  /** A single record is listed exactly when it is announced. */
  lemma MarketplaceOne(c: CollectionData)
    ensures Marketplace([c]) == if c.status == Anunciada then [c] else []
  {
    assert [c][1..] == [];
  }

  /** The marketplace of a concatenation is the concatenation of the
      marketplaces; with `MarketplaceOne` this fixes the order and the
      number of copies of every record listed. */
  lemma MarketplaceConcat(a: seq<CollectionData>, b: seq<CollectionData>)
    ensures Marketplace(a + b) == Marketplace(a) + Marketplace(b)
  {
    Seqs.FilterConcat(a, b, IsListed);
  }

  predicate HoldsRoute(c: CollectionData, userId: string) {
    c.idColetor == Some(userId) && InRoute(c.status)
  }

  /** `activeRoute`: the first record the user has claimed and not yet
      finished. */
  function ActiveRoute(cs: seq<CollectionData>, userId: string): (r: Option<CollectionData>)
    ensures r.None? <==> forall i :: 0 <= i < |cs| ==> !HoldsRoute(cs[i], userId)
    ensures r.Some? ==> exists i :: Seqs.FirstAt(cs, c => HoldsRoute(c, userId), i) && cs[i] == r.value
    ensures r.Some? ==> r.value.idColetor == Some(userId) && InRoute(r.value.status)
  {
    Seqs.Find(cs, c => HoldsRoute(c, userId))
  }

  /** `Math.floor(100000 + roll * 900000).toString()` for a random `roll`
      in [0, 1): always six decimal digits. */
  function ConfirmationCode(roll: real): (code: string)
    requires 0.0 <= roll < 1.0
    ensures |code| == 6 && Text.AllDigits(code)
    ensures 100000 <= Text.ParseDigits(code) <= 999999
  {
    var n := (100000.0 + roll * 900000.0).Floor;
    assert 100000 <= n <= 999999;
    Text.SixDigits(n);
    Text.ParseNatToString(n);
    Text.NatToString(n)
  }

  /** `handleAccept`: the collector claims the record. */
  function Accept(c: CollectionData, userId: string, now: int, roll: real): (r: CollectionData)
    requires 0.0 <= roll < 1.0
    ensures r.status == Aceita && r.idColetor == Some(userId)
    ensures r.tsAceita == Some(now) && r.tsExpiracao == Some(now + ExpirationWindowMs)
    ensures r.codigoConfirmacao.Some? && |r.codigoConfirmacao.value| == 6
            && Text.AllDigits(r.codigoConfirmacao.value)
    ensures r.(status := c.status, idColetor := c.idColetor, tsAceita := c.tsAceita,
               tsExpiracao := c.tsExpiracao, codigoConfirmacao := c.codigoConfirmacao) == c
  {
    c.(idColetor := Some(userId), status := Aceita, tsAceita := Some(now),
       tsExpiracao := Some(now + ExpirationWindowMs), codigoConfirmacao := Some(ConfirmationCode(roll)))
  }

  /** `handleIniciarDeslocamento`: the collector sets off. */
  function Depart(route: CollectionData, now: int): (r: CollectionData)
    ensures r.status == EmRota && r.tsEmRota == Some(now)
    ensures r.(status := route.status, tsEmRota := route.tsEmRota) == route
  {
    route.(status := EmRota, tsEmRota := Some(now))
  }

  /** `handleConfirmarDesistencia`: the collector gives the record back.
      The confirmation code and every timestamp other than `tsAceita` are
      kept, and the `_abandoned` marker is not set. */
  function Abandon(route: CollectionData): (r: CollectionData)
    ensures r.status == Anunciada && r.idColetor.None? && r.tsAceita.None?
    ensures r.codigoConfirmacao == route.codigoConfirmacao && r.abandoned == route.abandoned
    ensures r.(status := route.status, idColetor := route.idColetor, tsAceita := route.tsAceita) == route
  {
    route.(status := Anunciada, idColetor := None, tsAceita := None)
  }

  /** A JavaScript number: a real value or NaN. */
  datatype JsNum = Num(v: real) | NaN

  /** A great-circle distance in kilometres, or `Infinity`. */
  datatype Dist = Finite(km: real) | Infinite

  /** `calculateDistance`: any NaN coordinate gives `Infinity`; otherwise
      the haversine formula, which is supplied as `haversine`. */
  function Distance(lat1: JsNum, lon1: JsNum, lat2: JsNum, lon2: JsNum,
                    haversine: (real, real, real, real) -> real): (d: Dist)
    ensures d.Infinite? <==> lat1.NaN? || lon1.NaN? || lat2.NaN? || lon2.NaN?
    ensures d.Finite? ==> d.km == haversine(lat1.v, lon1.v, lat2.v, lon2.v)
  {
    if lat1.NaN? || lon1.NaN? || lat2.NaN? || lon2.NaN? then Infinite
    else Finite(haversine(lat1.v, lon1.v, lat2.v, lon2.v))
  }

  predicate WithinArrivalRadius(d: Dist) {
    d.Finite? && d.km <= ArrivalRadiusKm
  }

  /** The position effect: with a route in `EM_ROTA` and a position fix,
      a distance within the radius issues the update to `EM_COLETA`. */
  function AutoArrival(route: Option<CollectionData>, position: Option<(JsNum, JsNum)>,
                       haversine: (real, real, real, real) -> real): (r: Option<CollectionData>)
    ensures r.Some? <==>
      && route.Some? && position.Some? && route.value.status == EmRota
      && WithinArrivalRadius(Distance(position.value.0, position.value.1,
                                      Num(route.value.lat), Num(route.value.lng), haversine))
    ensures r.Some? ==> r.value.status == EmColeta && r.value.(status := EmRota) == route.value
  {
    if route.Some? && position.Some? && route.value.status == EmRota then
      var d := Distance(position.value.0, position.value.1, Num(route.value.lat), Num(route.value.lng), haversine);
      if WithinArrivalRadius(d) then Some(route.value.(status := EmColeta)) else None
    else None
  }

  /** Once applied, the arrival update cannot fire again for the record. */
  lemma AutoArrivalFiresOnce(route: CollectionData, position: Option<(JsNum, JsNum)>,
                             later: Option<(JsNum, JsNum)>, haversine: (real, real, real, real) -> real)
    requires AutoArrival(Some(route), position, haversine).Some?
    ensures AutoArrival(AutoArrival(Some(route), position, haversine), later, haversine).None?
  {
  }

  /** A position with a NaN coordinate never triggers arrival. */
  lemma NaNNeverArrives(route: Option<CollectionData>, lat: JsNum, lng: JsNum,
                        haversine: (real, real, real, real) -> real)
    requires lat.NaN? || lng.NaN?
    ensures AutoArrival(route, Some((lat, lng)), haversine).None?
  {
  }

  /** The route screen offers "Iniciar Rota" only for an accepted route. */
  predicate DepartOffered(route: CollectionData) {
    route.status == Aceita
  }

  /** The handshake code is shown to the collector only on arrival. */
  predicate CodeShown(route: CollectionData) {
    route.status == EmColeta
  }
}

=== FILE: dashboard.dfy ===
/** The impact dashboard (`DashboardView`): headline figures, the weight
    per material of completed pickups, and the three-stage funnel. */
module Dashboard {
  import opened Wrappers
  import opened Types
  import Seqs
  import Tally

  predicate IsCompleted(c: CollectionData) {
    c.status == Concluida
  }

  /** The weight a record contributes to the completed total. */
  function CompletedWeight(c: CollectionData): real {
    if c.status == Concluida then c.weight else 0.0
  }

  function Completed(cs: seq<CollectionData>): seq<CollectionData> {
    Seqs.Filter(cs, IsCompleted)
  }

  datatype Stats = Stats(totalKg: real, completedCount: nat, activePartners: nat, activeCollectors: nat)

  function Advertisers(cs: seq<CollectionData>): seq<string> {
    seq(|cs|, i requires 0 <= i < |cs| => cs[i].idAnunciante)
  }

  predicate HasCollector(c: CollectionData) {
    Truthy(c.idColetor)
  }

  function Collectors(cs: seq<CollectionData>): seq<string> {
    var with := Seqs.Filter(cs, HasCollector);
    seq(|with|, i requires 0 <= i < |with| => with[i].idColetor.value)
  }

  /** `stats`. */
  function ComputeStats(cs: seq<CollectionData>): (r: Stats)
    ensures r.completedCount == Seqs.Count(cs, IsCompleted)
    ensures r.totalKg == Tally.SumAll(cs, CompletedWeight)
    ensures r.activePartners == |set i | 0 <= i < |cs| :: cs[i].idAnunciante|
    ensures r.activeCollectors == |set i | 0 <= i < |cs| && Truthy(cs[i].idColetor) :: cs[i].idColetor.value|
    ensures r.activePartners <= |cs| && r.activeCollectors <= |cs|
  {
    PartnersCount(cs);
    CollectorsCount(cs);
    SumCompleted(cs);
    Stats(Tally.SumAll(Completed(cs), WeightOf), |Completed(cs)|,
          |Tally.Dedupe(Advertisers(cs))|, |Tally.Dedupe(Collectors(cs))|)
  }

  lemma PartnersCount(cs: seq<CollectionData>)
    ensures |Tally.Dedupe(Advertisers(cs))| == |set i | 0 <= i < |cs| :: cs[i].idAnunciante|
  {
    Tally.DedupeCountsDistinct(Advertisers(cs));
    forall x | x in Advertisers(cs) ensures exists i :: 0 <= i < |cs| && cs[i].idAnunciante == x {
      var i :| 0 <= i < |Advertisers(cs)| && Advertisers(cs)[i] == x;
    }
    forall i | 0 <= i < |cs| ensures cs[i].idAnunciante in Advertisers(cs) {
      assert Advertisers(cs)[i] == cs[i].idAnunciante;
    }
    assert (set x | x in Advertisers(cs)) == (set i | 0 <= i < |cs| :: cs[i].idAnunciante);
  }

  lemma CollectorsCount(cs: seq<CollectionData>)
    ensures |Tally.Dedupe(Collectors(cs))| == |set i | 0 <= i < |cs| && Truthy(cs[i].idColetor) :: cs[i].idColetor.value|
    ensures |Collectors(cs)| <= |cs|
  {
    Tally.DedupeCountsDistinct(Collectors(cs));
    CollectorsSet(cs);
  }

  lemma CollectorsSet(cs: seq<CollectionData>)
    ensures (set x | x in Collectors(cs)) == (set i | 0 <= i < |cs| && Truthy(cs[i].idColetor) :: cs[i].idColetor.value)
  {
    var with := Seqs.Filter(cs, HasCollector);
    forall x | x in Collectors(cs)
      ensures exists i :: 0 <= i < |cs| && Truthy(cs[i].idColetor) && cs[i].idColetor.value == x
    {
      var j :| 0 <= j < |with| && Collectors(cs)[j] == x;
      assert with[j] in cs;
    }
    forall i | 0 <= i < |cs| && Truthy(cs[i].idColetor)
      ensures cs[i].idColetor.value in Collectors(cs)
    {
      assert cs[i] in with;
      var j :| 0 <= j < |with| && with[j] == cs[i];
      assert Collectors(cs)[j] == cs[i].idColetor.value;
    }
  }

  /** Summing the weights of the completed records is summing every
      record's weight with the others counted as zero. */
  lemma {:induction false} SumCompleted(cs: seq<CollectionData>)
    ensures Tally.SumAll(Completed(cs), WeightOf) == Tally.SumAll(cs, CompletedWeight)
  {
    if cs != [] {
      var init := cs[..|cs| - 1];
      var x := cs[|cs| - 1];
      SumCompleted(init);
      assert cs == init + [x];
      Seqs.FilterConcat(init, [x], IsCompleted);
      assert Seqs.Filter([x], IsCompleted) == if IsCompleted(x) then [x] else [];
      var f := Completed(init);
      if IsCompleted(x) {
        assert (f + [x])[..|f + [x]| - 1] == f;
      } else {
        assert Completed(cs) == f;
      }
    }
  }

  function MaterialKey(c: CollectionData): string {
    MaterialName(c.material)
  }

  /** `materialData`: one entry per material among the completed records,
      in order of first appearance, each with that material's completed
      weight; the entries add up to the completed total. */
  function MaterialData(cs: seq<CollectionData>): (r: seq<Tally.Entry>)
    ensures Tally.Keys(r) == Tally.Dedupe(Tally.KeysOf(Completed(cs), MaterialKey))
    ensures forall i :: 0 <= i < |r| ==>
              r[i].value == Tally.SumFor(Completed(cs), MaterialKey, WeightOf, r[i].key)
    ensures Tally.Total(r) == ComputeStats(cs).totalKg
  {
    var r := Tally.Tally(Completed(cs), MaterialKey, WeightOf);
    Tally.TallySpec(Completed(cs), MaterialKey, WeightOf);
    Tally.TallyEntries(Completed(cs), MaterialKey, WeightOf);
    r
  }

  predicate PastAcceptance(c: CollectionData) {
    c.status == Aceita || c.status == EmRota || c.status == Concluida
  }

  datatype Funnel = Funnel(requested: nat, accepted: nat, completed: nat)

  /** `conversionData`: every record, those counted as accepted (which
      leaves out records in `EM_COLETA`), and the completed ones. The
      stages never grow. */
  function Conversion(cs: seq<CollectionData>): (r: Funnel)
    ensures r.requested == |cs|
    ensures r.requested >= r.accepted >= r.completed
    ensures r.accepted == |set i | 0 <= i < |cs| && cs[i].status in {Aceita, EmRota, Concluida}|
    ensures r.completed == ComputeStats(cs).completedCount
  {
    Seqs.CountMonotone(cs, IsCompleted, PastAcceptance);
    Seqs.CountIsIndices(cs, PastAcceptance);
    assert Seqs.Indices(cs, PastAcceptance) == set i | 0 <= i < |cs| && cs[i].status in {Aceita, EmRota, Concluida};
    Funnel(|cs|, Seqs.Count(cs, PastAcceptance), Seqs.Count(cs, IsCompleted))
  }
}

=== FILE: database.dfy ===
/** The browser-storage record store (`DatabaseService`). Each storage key
    is a `Slot`: nothing saved, a value that parses, or text that makes
    `JSON.parse` throw. Reads and writes are pure functions from the old
    storage to the result and the new storage. */
module Database {
  import opened Wrappers
  import opened Types
  import Seqs

  datatype Slot<T> = Absent | Valid(v: T) | Malformed

  datatype Storage = Storage(
    collections: Slot<seq<CollectionData>>,
    users: Slot<seq<User>>,
    session: Slot<User>
  )

  /** The change event dispatched after every collection save. */
  datatype ChangeEvent = CollectionChange(data: CollectionData)

  /** The single account the user list is seeded with. */
  const AdminDefault := User(
    id := "admin-01", username := "admin", email := "admin@numatu.app", name := "Admin NUMATU",
    role := Admin, isProfileComplete := true, isActive := true,
    emailVerificado := true, telefoneVerificado := true, cpfVerificado := true,
    enderecoVerificado := true, faceVerified := true,
    password := Some("123"), telefone := None, cpf := None, cep := None, rua := None,
    numero := None, bairro := None, cidade := None, estado := None)

  /** `getCollections`: the stored list, or empty when nothing parses. */
  function GetCollections(st: Storage): seq<CollectionData> {
    match st.collections
    case Valid(cs) => cs
    case _ => []
  }

  /** The record as written to storage: the `_abandoned` marker is dropped. */
  function Clean(c: CollectionData): (r: CollectionData)
    ensures !r.abandoned
    ensures r.(abandoned := c.abandoned) == c
  {
    c.(abandoned := false)
  }

  predicate HasCollection(cs: seq<CollectionData>, id: string) {
    exists i :: 0 <= i < |cs| && cs[i].id == id
  }

  /** The list `saveCollection` writes back: every record carrying the id
      is replaced where it stands, or the record goes to the front. */
  function UpsertCollection(cs: seq<CollectionData>, c: CollectionData): (r: seq<CollectionData>)
    ensures HasCollection(cs, c.id) ==>
      && |r| == |cs|
      && forall i :: 0 <= i < |cs| ==> r[i] == (if cs[i].id == c.id then Clean(c) else cs[i])
    ensures !HasCollection(cs, c.id) ==> r == [Clean(c)] + cs
  {
    if HasCollection(cs, c.id) then
      seq(|cs|, i requires 0 <= i < |cs| => if cs[i].id == c.id then Clean(c) else cs[i])
    else [Clean(c)] + cs
  }

  /** After an upsert the id is present, its records are all the cleaned
      record, and saving the same record again changes nothing. */
  lemma UpsertCollectionStores(cs: seq<CollectionData>, c: CollectionData)
    ensures HasCollection(UpsertCollection(cs, c), c.id)
    ensures forall x :: x in UpsertCollection(cs, c) && x.id == c.id ==> x == Clean(c)
    ensures UpsertCollection(UpsertCollection(cs, c), c) == UpsertCollection(cs, c)
  {
    var r := UpsertCollection(cs, c);
    if HasCollection(cs, c.id) {
      var i :| 0 <= i < |cs| && cs[i].id == c.id;
      assert r[i].id == c.id;
    } else {
      assert r[0].id == c.id;
    }
    assert HasCollection(r, c.id);
    var r2 := UpsertCollection(r, c);
    assert |r2| == |r|;
    assert forall i :: 0 <= i < |r| ==> r2[i] == r[i];
  }

  /** `saveCollection`: writes the upserted list and dispatches the record
      as given, marker included. */
  function SaveCollection(st: Storage, c: CollectionData): (r: (Storage, ChangeEvent))
    ensures r.0.collections == Valid(UpsertCollection(GetCollections(st), c))
    ensures r.0.users == st.users && r.0.session == st.session
    ensures r.1.data == c
  {
    (st.(collections := Valid(UpsertCollection(GetCollections(st), c))), CollectionChange(c))
  }

  /** How a screen's `onUpdate` / `onAdd` prop reaches `saveCollection`.
      The router hands the screens the method itself, detached from the
      service object, and they call it bare; `OnService` is the call made on
      the service object. */
  datatype SaveCall = Detached | OnService

  /** The error a detached call raises. */
  const DetachedError: string := "TypeError: this is undefined"

  /** The save a screen's prop performs. A detached call evaluates
      `this.getCollections()` with no object behind `this`, which throws
      before anything is written: the promise rejects, and neither the
      storage nor the listeners see anything. */
  function SaveThrough(call: SaveCall, st: Storage, c: CollectionData): (r: Result<(Storage, ChangeEvent), string>)
    ensures r.Failure? <==> call == Detached
    ensures r.Failure? ==> r.error == DetachedError
    ensures r.Success? ==> r.value.0.collections == Valid(UpsertCollection(GetCollections(st), c))
                           && r.value.0.users == st.users && r.value.0.session == st.session
                           && r.value.1.data == c
  {
    match call
    case Detached => Failure(DetachedError)
    case OnService => Success(SaveCollection(st, c))
  }

  /** The storage once the save has settled: untouched by a failed save. */
  function StoredAfter(call: SaveCall, st: Storage, c: CollectionData): (r: Storage)
    ensures call == Detached ==> r == st
    ensures call == OnService ==> r == SaveCollection(st, c).0
  {
    match SaveThrough(call, st, c)
    case Success(saved) => saved.0
    case Failure(_) => st
  }

  /** Saving twice is saving once, and the saved id is then present. */
  lemma SaveCollectionIdempotent(st: Storage, c: CollectionData)
    ensures var st1 := SaveCollection(st, c).0;
            && HasCollection(GetCollections(st1), c.id)
            && SaveCollection(st1, c).0 == st1
  {
    UpsertCollectionStores(GetCollections(st), c);
  }

  /** `getUsers`: the stored list; with nothing stored, the list is seeded
      with the default administrator and that is returned; unparsable text
      reads as the empty list and is left in place. */
  function GetUsers(st: Storage): (r: (seq<User>, Storage))
    ensures st.users.Absent? ==> r.0 == [AdminDefault] && r.1.users == Valid([AdminDefault])
    ensures st.users.Valid? ==> r.0 == st.users.v && r.1 == st
    ensures st.users.Malformed? ==> r.0 == [] && r.1 == st
    ensures r.1.collections == st.collections && r.1.session == st.session
  {
    match st.users
    case Absent => ([AdminDefault], st.(users := Valid([AdminDefault])))
    case Valid(us) => (us, st)
    case Malformed => ([], st)
  }

  function FindUser(us: seq<User>, id: string): Option<User> {
    Seqs.Find(us, (u: User) => u.id == id)
  }

  /** `getSession`: the current list's user with the stored session's id,
      or none when there is no session, it does not parse, or its user is
      gone. Reading the user list may seed it. */
  function GetSession(st: Storage): (r: (Option<User>, Storage))
    ensures !st.session.Valid? ==> r.0.None? && r.1 == st
    ensures st.session.Valid? ==> r.1 == GetUsers(st).1
    ensures r.0.Some? ==> st.session.Valid? && r.0.value.id == st.session.v.id
                          && r.0.value in GetUsers(st).0
    ensures st.session.Valid? && (exists i :: 0 <= i < |GetUsers(st).0| && GetUsers(st).0[i].id == st.session.v.id)
            ==> r.0.Some?
  {
    match st.session
    case Valid(s) =>
      var (us, st1) := GetUsers(st);
      (FindUser(us, s.id), st1)
    case _ => (None, st)
  }

  predicate HasUser(us: seq<User>, id: string) {
    exists i :: 0 <= i < |us| && us[i].id == id
  }

  /** The list `saveUser` writes: every user with the id replaced in place,
      or the user appended at the end. */
  function UpsertUser(us: seq<User>, u: User): (r: seq<User>)
    ensures HasUser(us, u.id) ==>
      && |r| == |us|
      && forall i :: 0 <= i < |us| ==> r[i] == (if us[i].id == u.id then u else us[i])
    ensures !HasUser(us, u.id) ==> r == us + [u]
    ensures HasUser(r, u.id)
  {
    if HasUser(us, u.id) then
      var r := seq(|us|, i requires 0 <= i < |us| => if us[i].id == u.id then u else us[i]);
      var k :| 0 <= k < |us| && us[k].id == u.id;
      assert r[k].id == u.id;
      r
    else
      var r := us + [u];
      assert r[|us|].id == u.id;
      r
  }

  /** `saveUser`: writes the upserted list, then rewrites the session with
      the saved user when the session belongs to that user. */
  function SaveUser(st: Storage, u: User): (r: Storage)
    ensures r.users == Valid(UpsertUser(GetUsers(st).0, u))
    ensures r.collections == st.collections
  {
    var (us, st1) := GetUsers(st);
    var st2 := st1.(users := Valid(UpsertUser(us, u)));
    var (session, _) := GetSession(st2);
    if session.Some? && session.value.id == u.id then st2.(session := Valid(u)) else st2
  }

  /** The session is rewritten exactly when a parsable session names the
      saved user's id; otherwise it is left as it was. */
  lemma SaveUserSession(st: Storage, u: User)
    ensures st.session.Valid? && st.session.v.id == u.id ==> SaveUser(st, u).session == Valid(u)
    ensures !(st.session.Valid? && st.session.v.id == u.id) ==> SaveUser(st, u).session == st.session
  {
    var (us, st1) := GetUsers(st);
    var updated := UpsertUser(us, u);
    var st2 := st1.(users := Valid(updated));
    if st.session.Valid? && st.session.v.id == u.id {
      var k :| 0 <= k < |updated| && updated[k].id == u.id;
      assert GetUsers(st2).0 == updated;
    }
  }
}

=== FILE: geo.dfy ===
/** The geographic analysis (`GeoAnalysisView`): the neighbourhood filter,
    its list of choices, and the three heaviest neighbourhoods with their
    share of the total weight. */
module GeoAnalysis {
  import opened Types
  import Seqs
  import Tally

  /** The filter value that selects every record. */
  const AllNeighborhoods: string := "Todos"

  /** How many neighbourhoods the ranking shows. */
  const TopCount: nat := 3

  /** `filteredCollections`. */
  function FilteredCollections(cs: seq<CollectionData>, filter: string): (r: seq<CollectionData>)
    ensures filter == AllNeighborhoods ==> r == cs
    ensures filter != AllNeighborhoods ==>
      && (forall i :: 0 <= i < |r| ==> r[i] in cs && r[i].neighborhood == filter)
      && (forall i :: 0 <= i < |cs| && cs[i].neighborhood == filter ==> cs[i] in r)
  {
    if filter == AllNeighborhoods then cs else Seqs.Filter(cs, (c: CollectionData) => c.neighborhood == filter)
  }

  /** A single record is kept exactly when the filter is the catch-all or
      names its neighbourhood. */
  lemma FilteredOne(c: CollectionData, filter: string)
    ensures FilteredCollections([c], filter) == if filter == AllNeighborhoods || c.neighborhood == filter then [c] else []
  {
    assert [c][1..] == [];
  }

  /** Filtering on a neighbourhood keeps list order: it distributes over
      concatenation; with `FilteredOne` this fixes the order and the number
      of copies of every record kept. */
  lemma FilteredConcat(a: seq<CollectionData>, b: seq<CollectionData>, filter: string)
    ensures FilteredCollections(a + b, filter) == FilteredCollections(a, filter) + FilteredCollections(b, filter)
  {
    if filter != AllNeighborhoods {
      Seqs.FilterConcat(a, b, (c: CollectionData) => c.neighborhood == filter);
    }
  }

  /** `neighborhoods`: the catch-all choice followed by each neighbourhood
      once, in order of first appearance. */
  function Neighborhoods(cs: seq<CollectionData>): (r: seq<string>)
    ensures |r| >= 1 && r[0] == AllNeighborhoods
    ensures Tally.NoDuplicates(r[1..])
    ensures forall i :: 0 <= i < |cs| ==> cs[i].neighborhood in r[1..]
    ensures forall x :: x in r[1..] ==> exists i :: 0 <= i < |cs| && cs[i].neighborhood == x
    ensures forall i :: 1 <= i < |r| ==> r[i] in Tally.KeysOf(cs, NeighborhoodOf)
    ensures forall i, j :: 1 <= i < j < |r| ==>
              Tally.FirstIndex(Tally.KeysOf(cs, NeighborhoodOf), r[i]) < Tally.FirstIndex(Tally.KeysOf(cs, NeighborhoodOf), r[j])
  {
    var d := Tally.Dedupe(Tally.KeysOf(cs, NeighborhoodOf));
    DistinctNeighborhoods(cs);
    DistinctNeighborhoodsOrder(cs);
    assert ([AllNeighborhoods] + d)[1..] == d;
    assert forall i :: 1 <= i <= |d| ==> ([AllNeighborhoods] + d)[i] == d[i - 1];
    [AllNeighborhoods] + d
  }

  /** The distinct neighbourhoods are exactly those of the list. */
  lemma DistinctNeighborhoods(cs: seq<CollectionData>)
    ensures var d := Tally.Dedupe(Tally.KeysOf(cs, NeighborhoodOf));
            && (forall i :: 0 <= i < |cs| ==> cs[i].neighborhood in d)
            && (forall x :: x in d ==> exists i :: 0 <= i < |cs| && cs[i].neighborhood == x)
  {
    var ks := Tally.KeysOf(cs, NeighborhoodOf);
    var d := Tally.Dedupe(ks);
    forall i | 0 <= i < |cs| ensures cs[i].neighborhood in d {
      assert ks[i] == cs[i].neighborhood;
    }
  }

  /** The distinct neighbourhoods come in order of first occurrence. */
  lemma DistinctNeighborhoodsOrder(cs: seq<CollectionData>)
    ensures var ks := Tally.KeysOf(cs, NeighborhoodOf);
            var d := Tally.Dedupe(ks);
            && (forall i :: 0 <= i < |d| ==> d[i] in ks)
            && (forall i, j :: 0 <= i < j < |d| ==> Tally.FirstIndex(ks, d[i]) < Tally.FirstIndex(ks, d[j]))
  {
    var ks := Tally.KeysOf(cs, NeighborhoodOf);
    var d := Tally.Dedupe(ks);
    Tally.DedupeOrder(ks);
    assert forall i :: 0 <= i < |d| ==> d[i] in d;
  }

  /** One row of the ranking. */
  datatype Ranked = Ranked(name: string, weight: real, pct: real)

  function WithPct(es: seq<Tally.Entry>, total: real): (r: seq<Ranked>)
    ensures |r| == |es|
    ensures forall i :: 0 <= i < |es| ==> r[i] == Ranked(es[i].key, es[i].value, Tally.Percent(es[i].value, total))
  {
    seq(|es|, i requires 0 <= i < |es| => Ranked(es[i].key, es[i].value, Tally.Percent(es[i].value, total)))
  }

  /** The three heaviest entries of the per-neighbourhood weight tally. */
  function TopEntries(cs: seq<CollectionData>): seq<Tally.Entry> {
    Tally.Top(Tally.Tally(cs, NeighborhoodOf, WeightOf), TopCount)
  }

  /** The kept entries: as many as there are neighbourhoods, up to three,
      each a neighbourhood of the list named once. */
  lemma TopEntriesShape(cs: seq<CollectionData>)
    ensures var top := TopEntries(cs);
            && |top| == (if Tally.KeyCount(cs, NeighborhoodOf) <= TopCount then Tally.KeyCount(cs, NeighborhoodOf) else TopCount)
            && (forall i, j :: 0 <= i < j < |top| ==> top[i].key != top[j].key)
            && forall i :: 0 <= i < |top| ==> top[i].key in Tally.KeysOf(cs, NeighborhoodOf)
  {
    var top := TopEntries(cs);
    Tally.TopOfTallyShape(cs, NeighborhoodOf, WeightOf, TopCount);
    Tally.TopOfTallyKeys(cs, NeighborhoodOf, WeightOf, TopCount);
    assert forall i :: 0 <= i < |top| ==> top[i] in top;
    assert forall i :: 0 <= i < |top| ==> Tally.Keys(top)[i] == top[i].key;
  }

  /** The kept entries hold their neighbourhood's weight sum, and no
      neighbourhood left out weighs more than one kept. */
  lemma TopEntriesSums(cs: seq<CollectionData>)
    ensures var top := TopEntries(cs);
            && (forall i :: 0 <= i < |top| ==> top[i].value == Tally.SumFor(cs, NeighborhoodOf, WeightOf, top[i].key))
            && (forall i, j :: 0 <= i < |top| && 0 <= j < |cs| && (forall k :: 0 <= k < |top| ==> top[k].key != cs[j].neighborhood)
                  ==> top[i].value >= Tally.SumFor(cs, NeighborhoodOf, WeightOf, cs[j].neighborhood))
  {
    var top := TopEntries(cs);
    Tally.TopOfTallySums(cs, NeighborhoodOf, WeightOf, TopCount);
    Tally.TopOfTallyLargest(cs, NeighborhoodOf, WeightOf, TopCount);
    forall i | 0 <= i < |top|
      ensures top[i] in top
    {
    }
    forall j | 0 <= j < |cs| && (forall k :: 0 <= k < |top| ==> top[k].key != cs[j].neighborhood)
      ensures cs[j].neighborhood !in Tally.Keys(top)
    {
    }
  }

  /** Among equal weights the kept entries are the neighbourhoods that
      occur first, in that order. */
  lemma TopEntriesTies(cs: seq<CollectionData>)
    ensures var top := TopEntries(cs);
            var ks := Tally.KeysOf(cs, NeighborhoodOf);
            && (forall i, j :: 0 <= i < j < |top| && top[i].value == top[j].value
                  ==> top[i].key in ks && top[j].key in ks && Tally.FirstIndex(ks, top[i].key) < Tally.FirstIndex(ks, top[j].key))
            && (forall i, j :: 0 <= i < |top| && 0 <= j < |cs| && (forall k :: 0 <= k < |top| ==> top[k].key != cs[j].neighborhood)
                  && Tally.SumFor(cs, NeighborhoodOf, WeightOf, cs[j].neighborhood) == top[i].value
                  ==> top[i].key in ks && cs[j].neighborhood in ks && Tally.FirstIndex(ks, top[i].key) < Tally.FirstIndex(ks, cs[j].neighborhood))
  {
    var top := TopEntries(cs);
    assert top == Tally.Top(Tally.Tally(cs, NeighborhoodOf, WeightOf), TopCount);
    Tally.TopOfTallyTiesKept(cs, NeighborhoodOf, WeightOf, TopCount);
    Tally.TopOfTallyTiesDropped(cs, NeighborhoodOf, WeightOf, TopCount);
    forall j | 0 <= j < |cs| && (forall k :: 0 <= k < |top| ==> top[k].key != cs[j].neighborhood)
      ensures cs[j].neighborhood !in Tally.Keys(top)
    {
    }
  }

  /** Rows of equal weight come in the order in which their neighbourhoods
      first occur in the list. */
  predicate EqualWeightsInListOrder(cs: seq<CollectionData>, r: seq<Ranked>) {
    var ks := Tally.KeysOf(cs, NeighborhoodOf);
    forall i, j :: 0 <= i < j < |r| && r[i].weight == r[j].weight
      ==> r[i].name in ks && r[j].name in ks && Tally.FirstIndex(ks, r[i].name) < Tally.FirstIndex(ks, r[j].name)
  }

  /** A neighbourhood with no row whose weight equals a shown row's first
      occurs in the list after that row's neighbourhood. */
  predicate LeftOutTiesLater(cs: seq<CollectionData>, r: seq<Ranked>) {
    var ks := Tally.KeysOf(cs, NeighborhoodOf);
    forall i, j :: 0 <= i < |r| && 0 <= j < |cs| && (forall k :: 0 <= k < |r| ==> r[k].name != cs[j].neighborhood)
      && Tally.SumFor(cs, NeighborhoodOf, WeightOf, cs[j].neighborhood) == r[i].weight
      ==> r[i].name in ks && cs[j].neighborhood in ks && Tally.FirstIndex(ks, r[i].name) < Tally.FirstIndex(ks, cs[j].neighborhood)
  }

  /** The three heaviest entries as rows with their share of the total. */
  function Ranking(cs: seq<CollectionData>): seq<Ranked> {
    WithPct(TopEntries(cs), Tally.SumAll(cs, WeightOf))
  }

  /** As many rows as neighbourhoods up to three, each a distinct
      neighbourhood of the list. */
  lemma RankedShape(cs: seq<CollectionData>)
    ensures var r := Ranking(cs);
            && |r| <= TopCount
            && |r| == (if Tally.KeyCount(cs, NeighborhoodOf) <= TopCount then Tally.KeyCount(cs, NeighborhoodOf) else TopCount)
            && (forall i, j :: 0 <= i < j < |r| ==> r[i].name != r[j].name)
            && (forall i :: 0 <= i < |r| ==> r[i].name in Tally.KeysOf(cs, NeighborhoodOf))
  {
    var top := TopEntries(cs);
    var r := Ranking(cs);
    TopEntriesShape(cs);
    assert forall i :: 0 <= i < |r| ==> r[i].name == top[i].key;
  }

  /** The rows are heaviest first, each weighing its neighbourhood's total
      with its share of the overall weight, and none left out is heavier. */
  lemma RankedSums(cs: seq<CollectionData>)
    ensures var r := Ranking(cs);
            && (forall i, j :: 0 <= i < j < |r| ==> r[i].weight >= r[j].weight)
            && (forall i :: 0 <= i < |r| ==> r[i].weight == Tally.SumFor(cs, NeighborhoodOf, WeightOf, r[i].name))
            && (forall i :: 0 <= i < |r| ==> r[i].pct == Tally.Percent(r[i].weight, Tally.SumAll(cs, WeightOf)))
            && (forall i, j :: 0 <= i < |r| && 0 <= j < |cs| && (forall k :: 0 <= k < |r| ==> r[k].name != cs[j].neighborhood)
                  ==> r[i].weight >= Tally.SumFor(cs, NeighborhoodOf, WeightOf, cs[j].neighborhood))
  {
    var top := TopEntries(cs);
    var r := Ranking(cs);
    TopEntriesSums(cs);
    assert Tally.SortedDesc(top, Tally.EntryValue);
    assert forall i :: 0 <= i < |r| ==> r[i].name == top[i].key && r[i].weight == top[i].value;
  }

  /** The rows, named and weighted as their entries, inherit the tie order. */
  lemma RankedTies(cs: seq<CollectionData>)
    ensures EqualWeightsInListOrder(cs, Ranking(cs))
    ensures LeftOutTiesLater(cs, Ranking(cs))
  {
    var top := TopEntries(cs);
    var r := Ranking(cs);
    TopEntriesTies(cs);
    assert forall i :: 0 <= i < |r| ==> r[i].name == top[i].key && r[i].weight == top[i].value;
  }

  /** `topNeighborhoods`: the per-neighbourhood weight sums, largest first
      (equal weights in list order, as the stable sort leaves them), cut to
      three, with their percentage of the total weight. */
  function TopNeighborhoods(cs: seq<CollectionData>): (r: seq<Ranked>)
    ensures |r| <= TopCount
    ensures |r| == if Tally.KeyCount(cs, NeighborhoodOf) <= TopCount then Tally.KeyCount(cs, NeighborhoodOf) else TopCount
    ensures forall i, j :: 0 <= i < j < |r| ==> r[i].name != r[j].name
    ensures forall i :: 0 <= i < |r| ==> r[i].name in Tally.KeysOf(cs, NeighborhoodOf)
    ensures forall i, j :: 0 <= i < j < |r| ==> r[i].weight >= r[j].weight
    ensures forall i :: 0 <= i < |r| ==> r[i].weight == Tally.SumFor(cs, NeighborhoodOf, WeightOf, r[i].name)
    ensures forall i :: 0 <= i < |r| ==> r[i].pct == Tally.Percent(r[i].weight, Tally.SumAll(cs, WeightOf))
    ensures forall i, j :: 0 <= i < |r| && 0 <= j < |cs| && (forall k :: 0 <= k < |r| ==> r[k].name != cs[j].neighborhood)
              ==> r[i].weight >= Tally.SumFor(cs, NeighborhoodOf, WeightOf, cs[j].neighborhood)
    ensures EqualWeightsInListOrder(cs, r)
    ensures LeftOutTiesLater(cs, r)
  {
    RankedShape(cs);
    RankedSums(cs);
    RankedTies(cs);
    Ranking(cs)
  }
}

=== FILE: layout.dfy ===
/** The application shell (`Layout`): the side menu, filtered by the
    signed-in user's role, and the page title taken from it. */
module Layout {
  import opened Wrappers
  import opened Types
  import Seqs

  datatype MenuItem = MenuItem(id: string, title: string, roles: seq<Role>)

  /** The map entry is labelled for the collector's own routes. */
  function GeoLabel(role: Role): string {
    if role == Collector then "Minhas Rotas" else "Mapa de Atuação"
  }

  /** How many entries the menu has. */
  const ItemCount: nat := 11

  /** The `k`-th menu entry, in display order, as built for a user of
      `role`. */
  function Item(k: nat, role: Role): (m: MenuItem)
    requires k < ItemCount
    ensures Admin in m.roles
  {
    match k
    case 0 => MenuItem("overview", "Painel de Impacto", [Admin])
    case 1 => MenuItem("advertiser", "Meus Anúncios", [Admin, Advertiser])
    case 2 => MenuItem("operational", "Pulsação da Operação", [Admin])
    case 3 => MenuItem("geo", GeoLabel(role), [Admin, Collector])
    case 4 => MenuItem("reports", "Relatórios Automáticos", [Admin])
    case 5 => MenuItem("gamification", "Reconhecimento", [Admin, Advertiser, Collector])
    case 6 => MenuItem("partners", "Rede de Parceiros", [Admin])
    case 7 => MenuItem("rules", "Lógica e Métricas", [Admin])
    case 8 => MenuItem("integration", "Conexão de Dados", [Admin])
    case 9 => MenuItem("datamodel", "Estrutura Técnica", [Admin])
    case _ => MenuItem("guide", "Manual do Gestor", [Admin])
  }

  /** Every menu entry, in display order. */
  function AllItems(role: Role): seq<MenuItem> {
    seq(ItemCount, k requires 0 <= k < ItemCount => Item(k, role))
  }

  /** The entries from the `k`-th on that a user of `role` may see. */
  function ShownFrom(k: nat, role: Role): seq<MenuItem>
    requires k <= ItemCount
    decreases ItemCount - k
  {
    if k == ItemCount then []
    else if role in Item(k, role).roles then [Item(k, role)] + ShownFrom(k + 1, role)
    else ShownFrom(k + 1, role)
  }

  function VisibleTo(role: Role): MenuItem -> bool {
    (m: MenuItem) => role in m.roles
  }

  /** `menuItems`: the entries whose roles include the user's, in order. */
  function MenuItems(role: Role): seq<MenuItem> {
    ShownFrom(0, role)
  }

  /** The menu is the list of all entries filtered on their role lists. */
  lemma {:induction false} ShownFromIsFilter(k: nat, role: Role)
    requires k <= ItemCount
    ensures ShownFrom(k, role) == Seqs.Filter(AllItems(role)[k..], VisibleTo(role))
    decreases ItemCount - k
  {
    if k < ItemCount {
      ShownFromIsFilter(k + 1, role);
      assert AllItems(role)[k..][1..] == AllItems(role)[k + 1..];
    }
  }

  lemma MenuIsFilter(role: Role)
    ensures MenuItems(role) == Seqs.Filter(AllItems(role), VisibleTo(role))
  {
    ShownFromIsFilter(0, role);
    assert AllItems(role)[0..] == AllItems(role);
  }

  function Ids(ms: seq<MenuItem>): (r: seq<string>)
    ensures |r| == |ms| && forall i :: 0 <= i < |ms| ==> r[i] == ms[i].id
  {
    seq(|ms|, i requires 0 <= i < |ms| => ms[i].id)
  }

  /** The tabs a role can reach from the menu. */
  function MenuIds(role: Role): seq<string> {
    Ids(MenuItems(role))
  }

  /** Every entry lists the administrator among its roles. */
  lemma {:induction false} AdminSeesFrom(k: nat)
    requires k <= ItemCount
    ensures ShownFrom(k, Admin) == AllItems(Admin)[k..]
    decreases ItemCount - k
  {
    if k < ItemCount {
      AdminSeesFrom(k + 1);
      assert AllItems(Admin)[k..] == [Item(k, Admin)] + AllItems(Admin)[k + 1..];
    }
  }

  /** The administrator sees the whole menu. */
  lemma AdminMenu()
    ensures MenuItems(Admin) == AllItems(Admin)
    ensures MenuIds(Admin) == ["overview", "advertiser", "operational", "geo", "reports", "gamification",
                               "partners", "rules", "integration", "datamodel", "guide"]
  {
    AdminSeesFrom(0);
    assert AllItems(Admin)[0..] == AllItems(Admin);
  }

  /** An advertiser sees their listings and the recognition page only. */
  lemma AdvertiserMenu()
    ensures MenuIds(Advertiser) == ["advertiser", "gamification"]
  {
  }

  /** A collector sees their routes and the recognition page only, and the
      map entry carries the routes label. */
  lemma CollectorMenu()
    ensures MenuIds(Collector) == ["geo", "gamification"]
    ensures MenuItems(Collector)[0].title == "Minhas Rotas"
  {
  }

  /** No menu offers the sign-in tab. */
  lemma NoAuthTab()
    ensures forall rl: Role :: "auth" !in MenuIds(rl)
  {
    AdminMenu();
    AdvertiserMenu();
    CollectorMenu();
    forall rl: Role
      ensures "auth" !in MenuIds(rl)
    {
      match rl
      case Admin =>
      case Advertiser =>
      case Collector =>
    }
  }

  /** The title of the first entry of `ms` for `tab`, if any. */
  function TitleOf(ms: seq<MenuItem>, tab: string): (r: Option<string>)
    ensures r.None? <==> tab !in Ids(ms)
    ensures r.Some? ==> exists i :: 0 <= i < |ms| && ms[i].id == tab && ms[i].title == r.value
  {
    var found := Seqs.Find(ms, (m: MenuItem) => m.id == tab);
    if found.Some? then Some(found.value.title) else None
  }

  /** The header title: the label of the first visible entry for the
      active tab, or nothing when the tab is not in the user's menu. */
  function HeaderTitle(role: Role, tab: string): (r: Option<string>)
    ensures r.None? <==> tab !in MenuIds(role)
    ensures r.Some? ==> exists i :: 0 <= i < |MenuItems(role)| && MenuItems(role)[i].id == tab && MenuItems(role)[i].title == r.value
  {
    TitleOf(MenuItems(role), tab)
  }
}

=== FILE: lifecycle.dfy ===
/** The pickup lifecycle across the screens: what the store, the
    marketplace, the active route and the notifications look like after
    each handler's update has been saved, and the status machine the
    offered buttons drive. */
module Lifecycle {
  import opened Wrappers
  import opened Types
  import Seqs
  import Text
  import Database
  import CollectorDashboard
  import AdvertiserView
  import NotificationCenter

  /** No record in the list carries the `_abandoned` marker. */
  predicate AllClean(cs: seq<CollectionData>) {
    forall i :: 0 <= i < |cs| ==> !cs[i].abandoned
  }

  /** Saving never leaves the marker in storage, so a stored list stays
      free of it. */
  lemma UpsertKeepsClean(cs: seq<CollectionData>, c: CollectionData)
    requires AllClean(cs)
    ensures AllClean(Database.UpsertCollection(cs, c))
  {
    var r := Database.UpsertCollection(cs, c);
    if !Database.HasCollection(cs, c.id) {
      forall i | 0 <= i < |r| ensures !r[i].abandoned {
        if i > 0 {
          assert r[i] == cs[i - 1];
        }
      }
    }
  }

  /** Every record the store holds under the id of `c` is the saved record. */
  lemma StoredUnderId(cs: seq<CollectionData>, c: CollectionData, i: int)
    requires 0 <= i < |Database.UpsertCollection(cs, c)|
    requires Database.UpsertCollection(cs, c)[i].id == c.id
    ensures Database.UpsertCollection(cs, c)[i] == Database.Clean(c)
  {
    Database.UpsertCollectionStores(cs, c);
    assert Database.UpsertCollection(cs, c)[i] in Database.UpsertCollection(cs, c);
  }

  /** Accepting a listing and saving it takes the listing off the
      marketplace. */
  lemma AcceptLeavesMarket(cs: seq<CollectionData>, c: CollectionData, userId: string, now: int, roll: real)
    requires 0.0 <= roll < 1.0
    ensures var after := Database.UpsertCollection(cs, CollectorDashboard.Accept(c, userId, now, roll));
            forall i :: 0 <= i < |CollectorDashboard.Marketplace(after)| ==> CollectorDashboard.Marketplace(after)[i].id != c.id
  {
    var a := CollectorDashboard.Accept(c, userId, now, roll);
    var after := Database.UpsertCollection(cs, a);
    var market := CollectorDashboard.Marketplace(after);
    forall i | 0 <= i < |market| ensures market[i].id != c.id {
      var j :| 0 <= j < |after| && after[j] == market[i];
      if after[j].id == c.id {
        StoredUnderId(cs, a, j);
      }
    }
  }

  /** When no stored record is a route of the user, the only route of the
      user after saving `a` is the saved `a`. */
  lemma OnlyRouteHeld(cs: seq<CollectionData>, a: CollectionData, userId: string, i: int)
    requires forall j :: 0 <= j < |cs| ==> !CollectorDashboard.HoldsRoute(cs[j], userId)
    requires 0 <= i < |Database.UpsertCollection(cs, a)|
    ensures CollectorDashboard.HoldsRoute(Database.UpsertCollection(cs, a)[i], userId) ==>
              Database.UpsertCollection(cs, a)[i] == Database.Clean(a)
  {
    var after := Database.UpsertCollection(cs, a);
    if !Database.HasCollection(cs, a.id) && i > 0 {
      assert after[i] == cs[i - 1];
    }
  }

  /** As the router wires it, accepting a listing stores nothing: the
      detached save fails, the listing stays on the marketplace and no
      change event reaches the owner. */
  lemma DetachedAcceptIsLost(st: Database.Storage, c: CollectionData, userId: string, now: int, roll: real)
    requires 0.0 <= roll < 1.0
    requires c in CollectorDashboard.Marketplace(Database.GetCollections(st))
    ensures var a := CollectorDashboard.Accept(c, userId, now, roll);
            && Database.SaveThrough(Database.Detached, st, a).Failure?
            && Database.StoredAfter(Database.Detached, st, a) == st
            && c in CollectorDashboard.Marketplace(Database.GetCollections(Database.StoredAfter(Database.Detached, st, a)))
  {
  }

  /** Saved on the service object, the acceptance takes the listing off the
      marketplace the stored list shows. */
  lemma ServiceAcceptLeavesMarket(st: Database.Storage, c: CollectionData, userId: string, now: int, roll: real)
    requires 0.0 <= roll < 1.0
    ensures var a := CollectorDashboard.Accept(c, userId, now, roll);
            var market := CollectorDashboard.Marketplace(Database.GetCollections(Database.StoredAfter(Database.OnService, st, a)));
            && Database.SaveThrough(Database.OnService, st, a).Success?
            && forall i :: 0 <= i < |market| ==> market[i].id != c.id
  {
    AcceptLeavesMarket(Database.GetCollections(st), c, userId, now, roll);
  }

  /** For a collector holding no route, the saved acceptance becomes the
      active route. */
  lemma AcceptBecomesRoute(cs: seq<CollectionData>, c: CollectionData, userId: string, now: int, roll: real)
    requires 0.0 <= roll < 1.0
    requires forall i :: 0 <= i < |cs| ==> !CollectorDashboard.HoldsRoute(cs[i], userId)
    ensures var a := CollectorDashboard.Accept(c, userId, now, roll);
            CollectorDashboard.ActiveRoute(Database.UpsertCollection(cs, a), userId) == Some(Database.Clean(a))
  {
    var a := CollectorDashboard.Accept(c, userId, now, roll);
    var after := Database.UpsertCollection(cs, a);
    Database.UpsertCollectionStores(cs, a);
    var k :| 0 <= k < |after| && after[k].id == c.id;
    StoredUnderId(cs, a, k);
    assert CollectorDashboard.HoldsRoute(after[k], userId);
    var r := CollectorDashboard.ActiveRoute(after, userId);
    var i :| Seqs.FirstAt(after, x => CollectorDashboard.HoldsRoute(x, userId), i) && after[i] == r.value;
    OnlyRouteHeld(cs, a, userId, i);
  }

  /** Abandoning a route and saving it puts the record back on the
      marketplace with its confirmation code still set. */
  lemma AbandonThenSave(cs: seq<CollectionData>, route: CollectionData)
    ensures var b := Database.Clean(CollectorDashboard.Abandon(route));
            && b in CollectorDashboard.Marketplace(Database.UpsertCollection(cs, CollectorDashboard.Abandon(route)))
            && b.codigoConfirmacao == route.codigoConfirmacao
            && b.idColetor.None?
  {
    var b := CollectorDashboard.Abandon(route);
    var after := Database.UpsertCollection(cs, b);
    Database.UpsertCollectionStores(cs, b);
    var k :| 0 <= k < |after| && after[k].id == b.id;
    StoredUnderId(cs, b, k);
  }

  /** The abandon event of a record read from storage is announced as a
      new listing to every collector and never as an abandonment to the
      owner, because the handler does not set the marker. */
  lemma AbandonAnnouncedAsNew(cs: seq<CollectionData>, userId: string, role: Role, viewer: string)
    requires AllClean(cs)
    requires CollectorDashboard.ActiveRoute(cs, userId).Some?
    ensures var ev := Database.SaveCollection(Database.Storage(Database.Valid(cs), Database.Absent, Database.Absent),
                                              CollectorDashboard.Abandon(CollectorDashboard.ActiveRoute(cs, userId).value)).1;
            && NotificationCenter.Route(ev.data, role, viewer) != Some(NotificationCenter.CollectorAbandoned)
            && (NotificationCenter.Route(ev.data, role, viewer) == Some(NotificationCenter.NewOpportunity) <==> role == Collector)
  {
    var route := CollectorDashboard.ActiveRoute(cs, userId).value;
    assert route in cs;
  }

  /** Handing the code over works straight from acceptance: the validation
      button is already offered, and typing the stored code completes the
      record without any arrival. */
  lemma ConfirmSkipsArrival(cs: seq<CollectionData>, c: CollectionData, userId: string, t0: int, roll: real, now: int)
    requires 0.0 <= roll < 1.0
    ensures var a := CollectorDashboard.Accept(c, userId, t0, roll);
            var after := Database.UpsertCollection(cs, a);
            var dialog := AdvertiserView.Dialog(Some(c.id), a.codigoConfirmacao.value);
            && AdvertiserView.ValidateOffered(Database.Clean(a))
            && AdvertiserView.ValidateCode(after, dialog, now).0 == Some(AdvertiserView.Complete(Database.Clean(a), now))
  {
    var a := CollectorDashboard.Accept(c, userId, t0, roll);
    var after := Database.UpsertCollection(cs, a);
    var dialog := AdvertiserView.Dialog(Some(c.id), a.codigoConfirmacao.value);
    Text.TrimDigits(a.codigoConfirmacao.value);
    Database.UpsertCollectionStores(cs, a);
    var col := AdvertiserView.DialogRecord(after, dialog);
    var k :| 0 <= k < |after| && after[k].id == c.id;
    assert col.Some?;
    var j :| Seqs.FirstAt(after, (x: CollectionData) => Some(x.id) == dialog.confirmingId, j) && after[j] == col.value;
    StoredUnderId(cs, a, j);
  }

  /** The buttons and the position effect, as steps on one record. */
  datatype Action =
    | AcceptAction(userId: string, roll: real)
    | DepartAction
    | ArriveAction
    | AbandonAction
    | ConfirmAction(typed: string)

  /** The statuses the handlers use; `RASCUNHO`, `AGENDADA` and
      `CANCELADA` are never produced. */
  predicate Used(s: Status) {
    s == Anunciada || s == Aceita || s == EmRota || s == EmColeta || s == Concluida
  }

  /** Whether the screens offer the action for the record: accept on a
      marketplace card, depart on an accepted route, arrival while on the
      way (the distance test is abstracted), abandon on any active route,
      and confirmation while the validation button is shown and the typed
      text matches the code. */
  predicate Offered(c: CollectionData, act: Action) {
    match act
    case AcceptAction(_, roll) => CollectorDashboard.IsListed(c) && 0.0 <= roll < 1.0
    case DepartAction => CollectorDashboard.DepartOffered(c)
    case ArriveAction => c.status == EmRota
    case AbandonAction => CollectorDashboard.InRoute(c.status)
    case ConfirmAction(typed) => AdvertiserView.ValidateOffered(c) && c.codigoConfirmacao == Some(Text.Trim(typed))
  }

  /** The record an offered action leaves behind, at instant `now`. */
  function Step(c: CollectionData, act: Action, now: int): (r: Option<CollectionData>)
    ensures r.Some? <==> Offered(c, act)
    ensures r.Some? ==> r.value.id == c.id && r.value.idAnunciante == c.idAnunciante
  {
    if !Offered(c, act) then None
    else
      match act
      case AcceptAction(userId, roll) => Some(CollectorDashboard.Accept(c, userId, now, roll))
      case DepartAction => Some(CollectorDashboard.Depart(c, now))
      case ArriveAction => Some(c.(status := EmColeta))
      case AbandonAction => Some(CollectorDashboard.Abandon(c))
      case ConfirmAction(_) => Some(AdvertiserView.Complete(c, now))
  }

  /** The arrival step is the position effect's update whenever the
      effect fires. */
  lemma ArrivalIsAutoArrival(c: CollectionData, position: Option<(CollectorDashboard.JsNum, CollectorDashboard.JsNum)>,
                             haversine: (real, real, real, real) -> real, now: int)
    requires CollectorDashboard.AutoArrival(Some(c), position, haversine).Some?
    ensures Step(c, ArriveAction, now) == CollectorDashboard.AutoArrival(Some(c), position, haversine)
  {
  }

  /** A record in progress has a collector and a code, and a listed record
      has no collector. */
  predicate ClaimConsistent(c: CollectionData) {
    && (CollectorDashboard.InRoute(c.status) ==> c.idColetor.Some? && c.codigoConfirmacao.Some?)
    && (c.status == Anunciada ==> c.idColetor.None?)
  }

  /** A freshly published record is consistent. */
  lemma PublishConsistent(form: AdvertiserView.PublishForm, userId: string, profile: AdvertiserView.Profile,
                          gps: Option<(real, real)>, itemImage: Option<string>, now: nat)
    ensures ClaimConsistent(AdvertiserView.Publish(form, userId, profile, gps, itemImage, now))
  {
  }

  /** Offered steps stay within the used statuses and keep records
      consistent. */
  lemma StepPreserves(c: CollectionData, act: Action, now: int)
    requires Step(c, act, now).Some?
    ensures Used(c.status) ==> Used(Step(c, act, now).value.status)
    ensures ClaimConsistent(c) ==> ClaimConsistent(Step(c, act, now).value)
  {
  }

  /** A completed record is final: no action is offered on it. */
  lemma CompletedIsFinal(c: CollectionData, act: Action, now: int)
    requires c.status == Concluida
    ensures Step(c, act, now).None?
  {
  }

  /** An abandoned record is listed again yet still holds a code: the
      code survives abandonment. */
  lemma AbandonLeavesCode(c: CollectionData, now: int)
    requires Step(c, AbandonAction, now).Some?
    requires ClaimConsistent(c)
    ensures Step(c, AbandonAction, now).value.status == Anunciada
    ensures Step(c, AbandonAction, now).value.codigoConfirmacao.Some?
  {
  }
}

=== FILE: notifications.dfy ===
/** Notification routing (`NotificationCenter`): which change events a
    signed-in user is told about, and the capped, newest-first list of
    notifications with its unread badge. */
module NotificationCenter {
  import opened Wrappers
  import opened Types
  import Seqs

  /** The list keeps at most this many notifications. */
  const MaxNotifications: nat := 10

  datatype Kind = Info | Success | Warning

  /** The five routing rules, in the order they are tried. */
  datatype Rule = CollectorAbandoned | NewOpportunity | CollectionAccepted | CollectorArrived | CollectionCompleted

  datatype Notification = Notification(title: string, message: string, kind: Kind, ts: int, read: bool)

  /** The rule a change event matches for a user with this role and id,
      if any; the first matching rule wins. */
  function Route(data: CollectionData, role: Role, userId: string): (r: Option<Rule>)
    ensures r == Some(CollectorAbandoned) <==>
      data.status == Anunciada && data.abandoned && role == Advertiser && data.idAnunciante == userId
    ensures r == Some(NewOpportunity) <==>
      data.status == Anunciada && !data.abandoned && role == Collector
    ensures r == Some(CollectionAccepted) <==>
      data.status == Aceita && role == Advertiser && data.idAnunciante == userId
    ensures r == Some(CollectorArrived) <==>
      data.status == EmColeta && role == Advertiser && data.idAnunciante == userId
    ensures r == Some(CollectionCompleted) <==>
      data.status == Concluida && role == Collector && data.idColetor == Some(userId)
  {
    if data.status == Anunciada && data.abandoned && role == Advertiser && data.idAnunciante == userId then
      Some(CollectorAbandoned)
    else if data.status == Anunciada && !data.abandoned && role == Collector then
      Some(NewOpportunity)
    else if data.status == Aceita && role == Advertiser && data.idAnunciante == userId then
      Some(CollectionAccepted)
    else if data.status == EmColeta && role == Advertiser && data.idAnunciante == userId then
      Some(CollectorArrived)
    else if data.status == Concluida && role == Collector && data.idColetor == Some(userId) then
      Some(CollectionCompleted)
    else None
  }

  /** Records on the way, cancelled, drafted or scheduled records, and
      administrators never produce a notification. */
  lemma RouteSilent(data: CollectionData, role: Role, userId: string)
    requires data.status in {EmRota, Cancelada, Rascunho, Agendada} || role == Admin
    ensures Route(data, role, userId).None?
  {
  }

  /** The code text the arrival message shows: the code, or `---` when it
      is missing or empty. */
  function CodeText(code: Option<string>): (r: string)
    ensures Truthy(code) ==> r == code.value
    ensures !Truthy(code) ==> r == "---"
  {
    if Truthy(code) then code.value else "---"
  }

  const ArrivedPrefix: string := "O parceiro chegou ao endereço. Forneça o código: "

  /** The notification a matched rule produces, unread, stamped `now`. */
  function Compose(rule: Rule, data: CollectionData, now: int): (n: Notification)
    ensures !n.read && n.ts == now
    ensures n.kind == (match rule
                       case NewOpportunity => Info
                       case CollectionAccepted | CollectionCompleted => Kind.Success
                       case CollectorAbandoned | CollectorArrived => Warning)
    ensures rule == CollectorArrived ==>
      var code := CodeText(data.codigoConfirmacao);
      && |ArrivedPrefix| + |code| <= |n.message|
      && n.message[|ArrivedPrefix|..|ArrivedPrefix| + |code|] == code
  {
    var m := MaterialName(data.material);
    match rule
    case CollectorAbandoned =>
      Notification("Coleta Abandonada",
        "O coletor desistiu da retirada de " + m + ". Sua carga voltou ao marketplace.", Warning, now, false)
    case NewOpportunity =>
      Notification("Nova Oportunidade",
        "Material de " + m + " disponível em " + data.neighborhood + ".", Info, now, false)
    case CollectionAccepted =>
      Notification("Carga Aceita!",
        "Um coletor confirmou a retirada do material (" + m + ").", Kind.Success, now, false)
    case CollectorArrived =>
      Notification("Coletor no Local", ArrivedPrefix + CodeText(data.codigoConfirmacao) + ".", Warning, now, false)
    case CollectionCompleted =>
      Notification("Ciclo Finalizado",
        "Coleta de " + m + " validada pelo anunciante.", Kind.Success, now, false)
  }

  /** Prepends a notification and keeps the newest `MaxNotifications`. */
  function Push(list: seq<Notification>, n: Notification): (r: seq<Notification>)
    ensures 1 <= |r| <= MaxNotifications && r[0] == n
    ensures |r| == if |list| < MaxNotifications then |list| + 1 else MaxNotifications
    ensures forall i :: 1 <= i < |r| ==> r[i] == list[i - 1]
  {
    var all := [n] + list;
    if |all| <= MaxNotifications then all else all[..MaxNotifications]
  }

  /** `processChange`: a change event either adds one notification or
      leaves the list alone. */
  function ProcessChange(list: seq<Notification>, data: CollectionData, role: Role, userId: string,
                         now: int): (r: seq<Notification>)
    ensures Route(data, role, userId).None? ==> r == list
    ensures Route(data, role, userId).Some? ==>
      r == Push(list, Compose(Route(data, role, userId).value, data, now))
  {
    var rule := Route(data, role, userId);
    if rule.Some? then Push(list, Compose(rule.value, data, now)) else list
  }

  predicate IsUnread(n: Notification) {
    !n.read
  }

  /** `unreadCount`. */
  function UnreadCount(list: seq<Notification>): nat {
    Seqs.Count(list, IsUnread)
  }

  /** Opening the panel marks every entry read and changes nothing else. */
  function MarkAllRead(list: seq<Notification>): (r: seq<Notification>)
    ensures |r| == |list|
    ensures forall i :: 0 <= i < |r| ==> r[i] == list[i].(read := true)
    ensures UnreadCount(r) == 0
  {
    seq(|list|, i requires 0 <= i < |list| => list[i].(read := true))
  }

  /** A routed event raises the badge by one while the list has room; once
      full, the oldest entry drops out and the badge rises by at most one. */
  lemma {:induction false} ProcessChangeUnread(list: seq<Notification>, data: CollectionData, role: Role,
                                               userId: string, now: int)
    requires |list| <= MaxNotifications
    ensures var r := ProcessChange(list, data, role, userId, now);
            && |r| <= MaxNotifications
            && (Route(data, role, userId).Some? && |list| < MaxNotifications ==>
                  UnreadCount(r) == UnreadCount(list) + 1)
            && UnreadCount(r) <= UnreadCount(list) + 1
  {
    var rule := Route(data, role, userId);
    if rule.Some? {
      var n := Compose(rule.value, data, now);
      var r := Push(list, n);
      Seqs.CountConcat([n], list, IsUnread);
      assert Seqs.Filter([n], IsUnread) == [n];
      if |list| < MaxNotifications {
        assert r == [n] + list;
      } else {
        var kept := list[..MaxNotifications - 1];
        assert list == kept + list[MaxNotifications - 1..];
        Seqs.CountConcat(kept, list[MaxNotifications - 1..], IsUnread);
        assert r == [n] + kept;
        Seqs.CountConcat([n], kept, IsUnread);
      }
    }
  }
}

=== FILE: operational.dfy ===
/** The operations pulse (`OperationalView`): the per-status counters, the
    mean response time, the overdue listings, the completion rate and the
    neighbourhoods with the most listings waiting. */
module Operational {
  import opened Types
  import Seqs
  import Tally

  /** A counter of the `statusCounts` record. A status the record was not
      created with starts as `undefined`, and `undefined++` is NaN, which
      every later `++` keeps. */
  datatype Counter = Num(n: nat) | NotANumber

  function Incr(c: Counter): (r: Counter)
    ensures c.Num? ==> r == Num(c.n + 1)
    ensures c.NotANumber? ==> r.NotANumber?
  {
    match c
    case Num(n) => Num(n + 1)
    case NotANumber => NotANumber
  }

  /** The five statuses the counter record starts with, at zero. */
  predicate Tracked(s: Status) {
    s == Anunciada || s == Aceita || s == EmRota || s == Concluida || s == Cancelada
  }

  const InitialCounts: map<Status, Counter> :=
    map[Anunciada := Num(0), Aceita := Num(0), EmRota := Num(0), Concluida := Num(0), Cancelada := Num(0)]

  function HasStatus(s: Status): CollectionData -> bool {
    (c: CollectionData) => c.status == s
  }

  /** How many records carry status `s`. */
  function CountStatus(cs: seq<CollectionData>, s: Status): nat {
    Seqs.Count(cs, HasStatus(s))
  }

  /** Counting over one more record adds one exactly for its own status. */
  lemma CountStatusSnoc(cs: seq<CollectionData>, x: CollectionData, s: Status)
    ensures CountStatus(cs + [x], s) == CountStatus(cs, s) + (if x.status == s then 1 else 0)
  {
    Seqs.CountConcat(cs, [x], HasStatus(s));
    assert Seqs.Count([x], HasStatus(s)) == if x.status == s then 1 else 0 by {
      assert [x][1..] == [];
    }
  }

  /** `statusCounts` after the `forEach`. */
  function StatusCounts(cs: seq<CollectionData>): map<Status, Counter> {
    if cs == [] then InitialCounts
    else
      var m := StatusCounts(cs[..|cs| - 1]);
      var s := cs[|cs| - 1].status;
      if s in m then m[s := Incr(m[s])] else m[s := NotANumber]
  }

  /** What one more record does to the entry for `s`: a present entry is
      incremented when the record carries `s` and kept otherwise; an
      absent entry appears, as NaN, exactly when the record carries `s`. */
  lemma StatusCountsSnoc(cs: seq<CollectionData>, x: CollectionData, s: Status)
    ensures var m := StatusCounts(cs);
            s in m ==> s in StatusCounts(cs + [x])
                       && StatusCounts(cs + [x])[s] == (if x.status == s then Incr(m[s]) else m[s])
    ensures var m := StatusCounts(cs);
            s !in m ==> (s in StatusCounts(cs + [x]) <==> x.status == s)
                        && (x.status == s ==> StatusCounts(cs + [x])[s] == NotANumber)
  {
    assert (cs + [x])[..|cs + [x]| - 1] == cs;
  }

  /** The record starts with the five tracked statuses at zero. */
  lemma InitialCountsAt(s: Status)
    ensures Tracked(s) ==> s in InitialCounts && InitialCounts[s] == Num(0)
    ensures !Tracked(s) ==> s !in InitialCounts
  {
  }

  /** Each of the five tracked statuses holds the number of records
      carrying it. */
  lemma {:induction false} StatusCountsTracked(cs: seq<CollectionData>, s: Status)
    requires Tracked(s)
    ensures s in StatusCounts(cs) && StatusCounts(cs)[s] == Num(CountStatus(cs, s))
  {
    if cs == [] {
      InitialCountsAt(s);
      assert Seqs.Count(cs, HasStatus(s)) == 0;
    } else {
      var init := cs[..|cs| - 1];
      var x := cs[|cs| - 1];
      assert cs == init + [x];
      StatusCountsTracked(init, s);
      TrackedStep(init, x, s);
    }
  }

  /** One more record keeps a tracked entry equal to its count. */
  lemma TrackedStep(init: seq<CollectionData>, x: CollectionData, s: Status)
    requires Tracked(s)
    requires s in StatusCounts(init) && StatusCounts(init)[s] == Num(CountStatus(init, s))
    ensures s in StatusCounts(init + [x]) && StatusCounts(init + [x])[s] == Num(CountStatus(init + [x], s))
  {
    CountStatusSnoc(init, x, s);
    StatusCountsSnoc(init, x, s);
  }

  /** A status outside the five is a key exactly when some record carries
      it, and then holds NaN. */
  lemma {:induction false} StatusCountsUntracked(cs: seq<CollectionData>, s: Status)
    requires !Tracked(s)
    ensures s in StatusCounts(cs) <==> CountStatus(cs, s) > 0
    ensures s in StatusCounts(cs) ==> StatusCounts(cs)[s] == NotANumber
  {
    if cs == [] {
      InitialCountsAt(s);
      assert Seqs.Count(cs, HasStatus(s)) == 0;
    } else {
      var init := cs[..|cs| - 1];
      var x := cs[|cs| - 1];
      assert cs == init + [x];
      StatusCountsUntracked(init, s);
      CountStatusSnoc(init, x, s);
      StatusCountsSnoc(init, x, s);
    }
  }

  /** Each of the five tracked statuses holds the number of records
      carrying it; any other status present in the list has been added to
      the record, as NaN; absent ones are not keys. */
  lemma StatusCountsAt(cs: seq<CollectionData>, s: Status)
    ensures Tracked(s) ==> s in StatusCounts(cs) && StatusCounts(cs)[s] == Num(CountStatus(cs, s))
    ensures !Tracked(s) ==> (s in StatusCounts(cs) <==> CountStatus(cs, s) > 0)
    ensures !Tracked(s) && s in StatusCounts(cs) ==> StatusCounts(cs)[s] == NotANumber
  {
    if Tracked(s) {
      StatusCountsTracked(cs, s);
    } else {
      StatusCountsUntracked(cs, s);
    }
  }

  /** A record contributes to the response time when both its request and
      its acceptance instants are set. */
  predicate HasLeadTime(c: CollectionData) {
    c.tsAceita.Some? && c.tsSolicitada.Some?
  }

  /** Minutes from request to acceptance, or nothing for a record without
      both instants. */
  function LeadMinutes(c: CollectionData): real {
    if HasLeadTime(c) then (c.tsAceita.value - c.tsSolicitada.value) as real / 60000.0 else 0.0
  }

  /** `Math.round`: the nearest integer, halves rounded up. */
  function Round(x: real): (r: int)
    ensures x - 0.5 < r as real <= x + 0.5
  {
    (x + 0.5).Floor
  }

  /** `avgResponseTime`: the rounded mean of the lead times, or 0 when no
      record has both instants. */
  function AvgResponseTime(cs: seq<CollectionData>): (r: int)
    ensures Seqs.Count(cs, HasLeadTime) == 0 ==> r == 0
    ensures Seqs.Count(cs, HasLeadTime) > 0 ==>
      var mean := Tally.SumAll(cs, LeadMinutes) / Seqs.Count(cs, HasLeadTime) as real;
      mean - 0.5 < r as real <= mean + 0.5
  {
    var n := Seqs.Count(cs, HasLeadTime);
    if n > 0 then Round(Tally.SumAll(cs, LeadMinutes) / n as real) else 0
  }

  /** Two hours, the age past which a waiting listing counts as critical. */
  const CriticalAfterMs: int := 2 * 60 * 60 * 1000

  /** A listing still waiting whose request is more than two hours old. A
      missing request instant gives NaN hours, and NaN is not above 2. */
  predicate IsCritical(c: CollectionData, now: int) {
    c.status == Anunciada &&
    match c.tsSolicitada
    case None => false
    case Some(t) => (now - t) as real / (1000.0 * 60.0 * 60.0) > 2.0
  }

  /** The hour comparison is the plain millisecond comparison. */
  lemma CriticalMeansOverdue(c: CollectionData, now: int)
    ensures IsCritical(c, now) <==>
      c.status == Anunciada && c.tsSolicitada.Some? && now - c.tsSolicitada.value > CriticalAfterMs
  {
    if c.tsSolicitada.Some? {
      var d := (now - c.tsSolicitada.value) as real;
      assert d / 3600000.0 > 2.0 <==> d > 7200000.0;
    }
  }

  function CriticalAt(now: int): CollectionData -> bool {
    (c: CollectionData) => IsCritical(c, now)
  }

  /** A waiting listing requested more than two hours before `now`, in
      whole milliseconds. */
  predicate Overdue(c: CollectionData, now: int) {
    c.status == Anunciada && c.tsSolicitada.Some? && now - c.tsSolicitada.value > CriticalAfterMs
  }

  /** `criticalCount`: the number of waiting listings requested more than
      two hours ago, and so never more than the listings still waiting. */
  function CriticalCount(cs: seq<CollectionData>, now: int): (r: nat)
    ensures r == |set i | 0 <= i < |cs| && Overdue(cs[i], now)|
    ensures r <= CountStatus(cs, Anunciada)
    ensures r == 0 <==> forall i :: 0 <= i < |cs| ==> !IsCritical(cs[i], now)
  {
    Seqs.CountMonotone(cs, CriticalAt(now), HasStatus(Anunciada));
    Seqs.CountIsIndices(cs, CriticalAt(now));
    forall i | 0 <= i < |cs|
      ensures CriticalAt(now)(cs[i]) <==> Overdue(cs[i], now)
    {
      CriticalMeansOverdue(cs[i], now);
    }
    assert Seqs.Indices(cs, CriticalAt(now)) == set i | 0 <= i < |cs| && Overdue(cs[i], now);
    Seqs.Count(cs, CriticalAt(now))
  }

  /** `completionRate` before its one-decimal rendering: the share of
      completed records as a percentage, or 0 for an empty list. */
  function CompletionRate(cs: seq<CollectionData>): (r: real)
    ensures |cs| == 0 ==> r == 0.0
    ensures |cs| > 0 ==> r == Tally.Percent(CountStatus(cs, Concluida) as real, |cs| as real)
    ensures 0.0 <= r <= 100.0
  {
    StatusCountsAt(cs, Concluida);
    if |cs| > 0 then Tally.Percent(StatusCounts(cs)[Concluida].n as real, |cs| as real) else 0.0
  }

  /** How many listings still waiting a neighbourhood has. */
  function PendingOf(c: CollectionData): real {
    if c.status == Anunciada then 1.0 else 0.0
  }

  const BottleneckCount: nat := 4

  /** `neighborhoodGargalos` without its mean times: one entry per
      neighbourhood of the list holding its number of waiting listings, most first,
      cut to four; no neighbourhood left out has more waiting than one
      kept, and among equal counts the neighbourhoods that occur first in
      the list are kept, in that order. */
  function Bottlenecks(cs: seq<CollectionData>): (r: seq<Tally.Entry>)
    ensures |r| <= BottleneckCount
    ensures |r| == if Tally.KeyCount(cs, NeighborhoodOf) <= BottleneckCount
                   then Tally.KeyCount(cs, NeighborhoodOf) else BottleneckCount
    ensures Tally.NoDuplicates(Tally.Keys(r))
    ensures forall e :: e in r ==> e.key in Tally.KeysOf(cs, NeighborhoodOf)
    ensures Tally.SortedDesc(r, Tally.EntryValue)
    ensures forall e :: e in r ==> e.value == Tally.SumFor(cs, NeighborhoodOf, PendingOf, e.key)
    ensures forall e, j :: e in r && 0 <= j < |cs| && cs[j].neighborhood !in Tally.Keys(r)
              ==> e.value >= Tally.SumFor(cs, NeighborhoodOf, PendingOf, cs[j].neighborhood)
    ensures var ks := Tally.KeysOf(cs, NeighborhoodOf);
            forall i, j :: 0 <= i < j < |r| && r[i].value == r[j].value
              ==> r[i].key in ks && r[j].key in ks && Tally.FirstIndex(ks, r[i].key) < Tally.FirstIndex(ks, r[j].key)
    ensures var ks := Tally.KeysOf(cs, NeighborhoodOf);
            forall i, j :: 0 <= i < |r| && 0 <= j < |cs| && cs[j].neighborhood !in Tally.Keys(r)
              && Tally.SumFor(cs, NeighborhoodOf, PendingOf, cs[j].neighborhood) == r[i].value
              ==> r[i].key in ks && cs[j].neighborhood in ks && Tally.FirstIndex(ks, r[i].key) < Tally.FirstIndex(ks, cs[j].neighborhood)
  {
    Tally.TopOfTallySums(cs, NeighborhoodOf, PendingOf, BottleneckCount);
    Tally.TopOfTallyLargest(cs, NeighborhoodOf, PendingOf, BottleneckCount);
    Tally.TopOfTallyShape(cs, NeighborhoodOf, PendingOf, BottleneckCount);
    Tally.TopOfTallyKeys(cs, NeighborhoodOf, PendingOf, BottleneckCount);
    Tally.TopOfTallyTiesKept(cs, NeighborhoodOf, PendingOf, BottleneckCount);
    Tally.TopOfTallyTiesDropped(cs, NeighborhoodOf, PendingOf, BottleneckCount);
    Tally.Top(Tally.Tally(cs, NeighborhoodOf, PendingOf), BottleneckCount)
  }

  predicate PendingIn(c: CollectionData, k: string) {
    c.status == Anunciada && c.neighborhood == k
  }

  function PendingAt(k: string): CollectionData -> bool {
    (c: CollectionData) => PendingIn(c, k)
  }

  /** A neighbourhood's tallied value is the number of its waiting
      listings. */
  lemma {:induction false} PendingCounts(cs: seq<CollectionData>, k: string)
    ensures Tally.SumFor(cs, NeighborhoodOf, PendingOf, k) == Seqs.Count(cs, PendingAt(k)) as real
  {
    if cs != [] {
      var init := cs[..|cs| - 1];
      var x := cs[|cs| - 1];
      PendingCounts(init, k);
      assert cs == init + [x];
      Seqs.CountConcat(init, [x], PendingAt(k));
      assert Seqs.Count([x], PendingAt(k)) == if PendingIn(x, k) then 1 else 0 by {
        assert [x][1..] == [];
      }
    }
  }
}

=== FILE: seqs.dfy ===
/** The array built-ins the views use: `filter`, `find` and a filtered
    `length`, over sequences and with a pure predicate. */
module Seqs {
  import opened Wrappers

  /** `s.filter(p)`: the elements satisfying `p`, in their original order. */
  function Filter<T(==)>(s: seq<T>, p: T -> bool): (r: seq<T>)
    ensures |r| <= |s|
    ensures forall i :: 0 <= i < |r| ==> r[i] in s && p(r[i])
    ensures forall i :: 0 <= i < |s| && p(s[i]) ==> s[i] in r
  {
    if s == [] then []
    else if p(s[0]) then [s[0]] + Filter(s[1..], p)
    else Filter(s[1..], p)
  }

  /** Filtering distributes over concatenation, so the filter keeps the
      relative order of the elements it retains. */
  lemma {:induction false} FilterConcat<T>(a: seq<T>, b: seq<T>, p: T -> bool)
    ensures Filter(a + b, p) == Filter(a, p) + Filter(b, p)
  {
    if a != [] {
      assert (a + b)[1..] == a[1..] + b;
      FilterConcat(a[1..], b, p);
    } else {
      assert a + b == b;
    }
  }

  /** Filtering keeps every element when all of them satisfy `p`. */
  lemma {:induction false} FilterAll<T>(s: seq<T>, p: T -> bool)
    requires forall i :: 0 <= i < |s| ==> p(s[i])
    ensures Filter(s, p) == s
  {
    if s != [] {
      FilterAll(s[1..], p);
    }
  }

  /** `s.filter(p).length`. */
  function Count<T(==)>(s: seq<T>, p: T -> bool): (n: nat)
    ensures n <= |s|
    ensures n == 0 <==> forall i :: 0 <= i < |s| ==> !p(s[i])
  {
    var r := Filter(s, p);
    assert r != [] ==> r[0] in s;
    assert (exists i :: 0 <= i < |s| && p(s[i])) ==> r != [] by {
      if i :| 0 <= i < |s| && p(s[i]) {
        assert s[i] in r;
      }
    }
    |r|
  }

  /** The positions of `s` whose element satisfies `p`. */
  function Indices<T>(s: seq<T>, p: T -> bool): set<int> {
    set i | 0 <= i < |s| && p(s[i])
  }

  /** One more element adds its own position exactly when it satisfies `p`. */
  lemma IndicesSnoc<T>(s: seq<T>, x: T, p: T -> bool)
    ensures Indices(s + [x], p) == Indices(s, p) + (if p(x) then {|s|} else {})
    ensures |s| !in Indices(s, p)
  {
    var t := s + [x];
    assert forall i :: 0 <= i < |s| ==> t[i] == s[i];
  }

  /** The filtered length is the number of positions satisfying `p`. */
  lemma {:induction false} CountIsIndices<T>(s: seq<T>, p: T -> bool)
    ensures Count(s, p) == |Indices(s, p)|
  {
    if s != [] {
      var init := s[..|s| - 1];
      var x := s[|s| - 1];
      assert s == init + [x];
      CountIsIndices(init, p);
      CountConcat(init, [x], p);
      assert Count([x], p) == if p(x) then 1 else 0 by {
        assert [x][1..] == [];
      }
      IndicesSnoc(init, x, p);
    } else {
      assert Indices(s, p) == {};
    }
  }

  /** Counting over a concatenation adds the counts. */
  lemma CountConcat<T>(a: seq<T>, b: seq<T>, p: T -> bool)
    ensures Count(a + b, p) == Count(a, p) + Count(b, p)
  {
    FilterConcat(a, b, p);
  }

  /** A predicate implied by another never counts more elements. */
  lemma {:induction false} CountMonotone<T>(s: seq<T>, p: T -> bool, q: T -> bool)
    requires forall x :: p(x) ==> q(x)
    ensures Count(s, p) <= Count(s, q)
  {
    if s != [] {
      CountMonotone(s[1..], p, q);
      assert Filter(s, p) == (if p(s[0]) then [s[0]] else []) + Filter(s[1..], p);
      assert Filter(s, q) == (if q(s[0]) then [s[0]] else []) + Filter(s[1..], q);
    }
  }

  /** `s[i]` is the first element of `s` satisfying `p`. */
  predicate FirstAt<T>(s: seq<T>, p: T -> bool, i: int) {
    0 <= i < |s| && p(s[i]) && forall j :: 0 <= j < i ==> !p(s[j])
  }

  /** `s.find(p)`: the first element satisfying `p`, or none. */
  function Find<T(==)>(s: seq<T>, p: T -> bool): (r: Option<T>)
    ensures r.None? <==> forall i :: 0 <= i < |s| ==> !p(s[i])
    ensures r.Some? ==> exists i :: FirstAt(s, p, i) && s[i] == r.value
  {
    if s == [] then None
    else if p(s[0]) then
      assert FirstAt(s, p, 0);
      Some(s[0])
    else
      var r := Find(s[1..], p);
      if r.Some? then
        var i :| FirstAt(s[1..], p, i) && s[1..][i] == r.value;
        assert FirstAt(s, p, i + 1);
        r
      else r
  }
}

=== FILE: tally.dfy ===
/** The grouping idioms the analytics views share: `new Set(...)` in
    first-occurrence order, a `Record<string, number>` filled by a
    `forEach` that adds into one entry per key (entries in insertion
    order), a stable `sort` by a numeric value, largest first, and a
    share expressed as a percentage. */
module Tally {

  predicate NoDuplicates<T(==)>(s: seq<T>) {
    forall i, j :: 0 <= i < j < |s| ==> s[i] != s[j]
  }

  /** The position of the first occurrence of `x` in `s`. */
  function FirstIndex(s: seq<string>, x: string): (i: nat)
    requires x in s
    ensures i < |s| && s[i] == x
    ensures forall j :: 0 <= j < i ==> s[j] != x
  {
    if s[0] == x then 0 else 1 + FirstIndex(s[1..], x)
  }

  /** Appending an element leaves the first occurrences of earlier
      elements where they were, and a new element first occurs last. */
  lemma FirstIndexSnoc(s: seq<string>, z: string, x: string)
    requires x in s + [z]
    ensures x in s ==> FirstIndex(s + [z], x) == FirstIndex(s, x)
    ensures x !in s ==> FirstIndex(s + [z], x) == |s|
  {
    var t := s + [z];
    assert forall j :: 0 <= j < |s| ==> t[j] == s[j];
    if x in s {
      assert t[FirstIndex(s, x)] == x;
    }
  }

  /** `Array.from(new Set(s))`: each distinct element once, in order of
      first occurrence (`DedupeOrder`). */
  function Dedupe(s: seq<string>): (r: seq<string>)
    ensures NoDuplicates(r)
    ensures forall x :: x in r <==> x in s
    ensures |r| <= |s|
  {
    if s == [] then []
    else
      var d := Dedupe(s[..|s| - 1]);
      assert forall x :: x in s <==> x in s[..|s| - 1] || x == s[|s| - 1] by {
        assert s == s[..|s| - 1] + [s[|s| - 1]];
      }
      if s[|s| - 1] in d then d else d + [s[|s| - 1]]
  }

  /** The distinct elements come in the order of their first occurrence. */
  predicate InFirstOrder(s: seq<string>, r: seq<string>)
    requires forall x :: x in r ==> x in s
  {
    forall i, j :: 0 <= i < j < |r| ==> FirstIndex(s, r[i]) < FirstIndex(s, r[j])
  }

  lemma {:induction false} DedupeOrder(s: seq<string>)
    ensures InFirstOrder(s, Dedupe(s))
  {
    if s != [] {
      var init := s[..|s| - 1];
      var last := s[|s| - 1];
      assert s == init + [last];
      DedupeOrder(init);
      DedupeOrderStep(init, last);
    }
  }

  /** One more element keeps the distinct elements in first-occurrence
      order. */
  lemma DedupeOrderStep(init: seq<string>, last: string)
    requires InFirstOrder(init, Dedupe(init))
    ensures InFirstOrder(init + [last], Dedupe(init + [last]))
  {
    var d := Dedupe(init);
    DedupeSnoc(init, last);
    if last in d {
      OrderSnocKeep(init, last, d);
    } else {
      OrderSnocAppend(init, last, d);
    }
  }

  /** Elements of `init` keep their order when anything is appended. */
  lemma OrderSnocKeep(init: seq<string>, last: string, d: seq<string>)
    requires forall x :: x in d ==> x in init
    requires InFirstOrder(init, d)
    ensures InFirstOrder(init + [last], d)
  {
    var s := init + [last];
    forall i, j | 0 <= i < j < |d|
      ensures FirstIndex(s, d[i]) < FirstIndex(s, d[j])
    {
      FirstIndexSnoc(init, last, d[i]);
      FirstIndexSnoc(init, last, d[j]);
    }
  }

  /** A new element appended after elements of `init` comes last in
      first-occurrence order. */
  lemma OrderSnocAppend(init: seq<string>, last: string, d: seq<string>)
    requires forall x :: x in d ==> x in init
    requires last !in init
    requires InFirstOrder(init, d)
    ensures InFirstOrder(init + [last], d + [last])
  {
    var s := init + [last];
    var r := d + [last];
    OrderSnocKeep(init, last, d);
    FirstIndexSnoc(init, last, last);
    forall i | 0 <= i < |d|
      ensures FirstIndex(s, r[i]) < FirstIndex(s, r[|d|])
    {
      assert r[i] == d[i];
      FirstIndexSnoc(init, last, d[i]);
    }
    assert forall i :: 0 <= i < |d| ==> r[i] == d[i];
  }

  /** One more element is appended exactly when it is new. */
  lemma DedupeSnoc(s: seq<string>, x: string)
    ensures Dedupe(s + [x]) == if x in Dedupe(s) then Dedupe(s) else Dedupe(s) + [x]
  {
    assert (s + [x])[..|s + [x]| - 1] == s;
  }

  lemma {:induction false} NoDuplicatesCardinality(s: seq<string>)
    requires NoDuplicates(s)
    ensures |set x | x in s| == |s|
  {
    if s != [] {
      var t := s[..|s| - 1];
      NoDuplicatesCardinality(t);
      assert s == t + [s[|s| - 1]];
      assert (set x | x in s) == (set x | x in t) + {s[|s| - 1]};
      assert s[|s| - 1] !in t;
    }
  }

  /** `new Set(s).size`: the number of distinct elements. */
  lemma DedupeCountsDistinct(s: seq<string>)
    ensures |Dedupe(s)| == |set x | x in s|
  {
    var d := Dedupe(s);
    NoDuplicatesCardinality(d);
    assert (set x | x in d) == (set x | x in s);
  }

  /** One key of the accumulating record and its running number. */
  datatype Entry = Entry(key: string, value: real)

  function Keys(es: seq<Entry>): (r: seq<string>)
    ensures |r| == |es| && forall i :: 0 <= i < |es| ==> r[i] == es[i].key
  {
    seq(|es|, i requires 0 <= i < |es| => es[i].key)
  }

  function Total(es: seq<Entry>): real {
    if es == [] then 0.0 else es[0].value + Total(es[1..])
  }

  /** `map[k] = (map[k] || 0) + d`: adds into the entry for `k`, or
      creates it at the end. */
  function Bump(es: seq<Entry>, k: string, d: real): (r: seq<Entry>)
    ensures |r| == if k in Keys(es) then |es| else |es| + 1
  {
    if es == [] then [Entry(k, 0.0 + d)]
    else if es[0].key == k then [es[0].(value := es[0].value + d)] + es[1..]
    else
      assert Keys(es) == [es[0].key] + Keys(es[1..]);
      [es[0]] + Bump(es[1..], k, d)
  }

  /** The keys of an entry followed by more entries. */
  lemma KeysCons(e: Entry, es: seq<Entry>)
    ensures Keys([e] + es) == [e.key] + Keys(es)
  {
  }

  /** Adding into the first entry's key keeps the keys. */
  lemma BumpKeysHead(es: seq<Entry>, k: string, d: real)
    requires es != [] && es[0].key == k
    ensures Keys(Bump(es, k, d)) == Keys(es) && k in Keys(es)
  {
    var rest := es[1..];
    var bumped := es[0].(value := es[0].value + d);
    assert es == [es[0]] + rest;
    assert Bump(es, k, d) == [bumped] + rest;
    KeysCons(es[0], rest);
    KeysCons(bumped, rest);
  }

  /** Adding into another key keeps the first entry and works on the rest. */
  lemma BumpKeysTail(es: seq<Entry>, k: string, d: real)
    requires es != [] && es[0].key != k
    ensures Keys(Bump(es, k, d)) == [es[0].key] + Keys(Bump(es[1..], k, d))
    ensures Keys(es) == [es[0].key] + Keys(es[1..])
    ensures k in Keys(es) <==> k in Keys(es[1..])
  {
    var rest := es[1..];
    assert es == [es[0]] + rest;
    assert Bump(es, k, d) == [es[0]] + Bump(rest, k, d);
    KeysCons(es[0], rest);
    KeysCons(es[0], Bump(rest, k, d));
  }

  /** Adding into a key creates its entry at the end only when it is new. */
  lemma {:induction false} BumpKeys(es: seq<Entry>, k: string, d: real)
    ensures Keys(Bump(es, k, d)) == if k in Keys(es) then Keys(es) else Keys(es) + [k]
  {
    if es == [] {
      assert Keys(es) == [];
      assert Keys(Bump(es, k, d)) == [k];
    } else if es[0].key == k {
      BumpKeysHead(es, k, d);
    } else {
      BumpKeys(es[1..], k, d);
      BumpKeysTail(es, k, d);
      var h := es[0].key;
      var tail := Keys(es[1..]);
      if k !in tail {
        assert [h] + (tail + [k]) == ([h] + tail) + [k];
      }
    }
  }

  /** Adding `d` into one key raises the total by `d`. */
  lemma {:induction false} BumpTotal(es: seq<Entry>, k: string, d: real)
    ensures Total(Bump(es, k, d)) == Total(es) + d
  {
    if es == [] {
    } else if es[0].key == k {
      assert Bump(es, k, d)[1..] == es[1..];
    } else {
      BumpTotal(es[1..], k, d);
      assert Bump(es, k, d)[1..] == Bump(es[1..], k, d);
    }
  }

  /** Adding `d` into `k` raises `k`'s number by `d` and leaves every other
      key's number alone. */
  lemma {:induction false} BumpLookup(es: seq<Entry>, k: string, d: real, k': string)
    ensures Lookup(Bump(es, k, d), k') == Lookup(es, k') + (if k' == k then d else 0.0)
  {
    if es == [] {
    } else if es[0].key == k {
      assert Bump(es, k, d)[1..] == es[1..];
    } else {
      BumpLookup(es[1..], k, d, k');
      assert Bump(es, k, d)[1..] == Bump(es[1..], k, d);
    }
  }

  /** The number held for the first entry with key `k`. */
  function Lookup(es: seq<Entry>, k: string): real {
    if es == [] then 0.0 else if es[0].key == k then es[0].value else Lookup(es[1..], k)
  }

  function KeysOf<T>(s: seq<T>, key: T -> string): (r: seq<string>)
    ensures |r| == |s| && forall i :: 0 <= i < |s| ==> r[i] == key(s[i])
  {
    seq(|s|, i requires 0 <= i < |s| => key(s[i]))
  }

  /** Σ amount(x) over the elements x of `s` whose key is `k`. */
  function SumFor<T>(s: seq<T>, key: T -> string, amount: T -> real, k: string): real {
    if s == [] then 0.0
    else SumFor(s[..|s| - 1], key, amount, k) + (if key(s[|s| - 1]) == k then amount(s[|s| - 1]) else 0.0)
  }

  /** Σ amount(x) over all of `s`. */
  function SumAll<T>(s: seq<T>, amount: T -> real): real {
    if s == [] then 0.0 else SumAll(s[..|s| - 1], amount) + amount(s[|s| - 1])
  }

  /** The record a `forEach` over `s` builds by adding `amount(x)` into the
      entry `key(x)`. */
  function Tally<T>(s: seq<T>, key: T -> string, amount: T -> real): seq<Entry> {
    if s == [] then [] else Bump(Tally(s[..|s| - 1], key, amount), key(s[|s| - 1]), amount(s[|s| - 1]))
  }

  /** The keys of a list with one more element end in that element's key. */
  lemma KeysOfSnoc<T>(s: seq<T>, key: T -> string)
    requires s != []
    ensures KeysOf(s, key) == KeysOf(s[..|s| - 1], key) + [key(s[|s| - 1])]
  {
    var ks := KeysOf(s, key);
    assert ks[..|s| - 1] == KeysOf(s[..|s| - 1], key);
    assert ks == ks[..|s| - 1] + [ks[|s| - 1]];
  }

  /** One more element adds its key to the distinct keys only when it is new. */
  lemma DedupeKeysSnoc<T>(s: seq<T>, key: T -> string)
    requires s != []
    ensures var d := Dedupe(KeysOf(s[..|s| - 1], key));
            var last := key(s[|s| - 1]);
            Dedupe(KeysOf(s, key)) == if last in d then d else d + [last]
  {
    KeysOfSnoc(s, key);
    DedupeSnoc(KeysOf(s[..|s| - 1], key), key(s[|s| - 1]));
  }

  /** The tally has one entry per distinct key, in first-occurrence order. */
  lemma {:induction false} TallyKeys<T>(s: seq<T>, key: T -> string, amount: T -> real)
    ensures Keys(Tally(s, key, amount)) == Dedupe(KeysOf(s, key))
  {
    if s != [] {
      var init := s[..|s| - 1];
      var t := Tally(init, key, amount);
      TallyKeys(init, key, amount);
      BumpKeys(t, key(s[|s| - 1]), amount(s[|s| - 1]));
      DedupeKeysSnoc(s, key);
    }
  }

  /** Each key's entry holds the sum over the elements with that key. */
  lemma {:induction false} TallyLookup<T>(s: seq<T>, key: T -> string, amount: T -> real, k: string)
    ensures Lookup(Tally(s, key, amount), k) == SumFor(s, key, amount, k)
  {
    if s != [] {
      var init := s[..|s| - 1];
      TallyLookup(init, key, amount, k);
      BumpLookup(Tally(init, key, amount), key(s[|s| - 1]), amount(s[|s| - 1]), k);
    }
  }

  /** The entries add up to the sum over everything. */
  lemma {:induction false} TallyTotal<T>(s: seq<T>, key: T -> string, amount: T -> real)
    ensures Total(Tally(s, key, amount)) == SumAll(s, amount)
  {
    if s != [] {
      var init := s[..|s| - 1];
      TallyTotal(init, key, amount);
      BumpTotal(Tally(init, key, amount), key(s[|s| - 1]), amount(s[|s| - 1]));
    }
  }

  /** The three facts together. */
  lemma TallySpec<T>(s: seq<T>, key: T -> string, amount: T -> real)
    ensures Keys(Tally(s, key, amount)) == Dedupe(KeysOf(s, key))
    ensures forall k :: Lookup(Tally(s, key, amount), k) == SumFor(s, key, amount, k)
    ensures Total(Tally(s, key, amount)) == SumAll(s, amount)
  {
    TallyKeys(s, key, amount);
    TallyTotal(s, key, amount);
    forall k
      ensures Lookup(Tally(s, key, amount), k) == SumFor(s, key, amount, k)
    {
      TallyLookup(s, key, amount, k);
    }
  }

  /** Every entry of the tally holds the sum over the elements with its key. */
  lemma TallyEntries<T>(s: seq<T>, key: T -> string, amount: T -> real)
    ensures forall i :: 0 <= i < |Tally(s, key, amount)| ==>
              Tally(s, key, amount)[i].value == SumFor(s, key, amount, Tally(s, key, amount)[i].key)
  {
    var r := Tally(s, key, amount);
    TallySpec(s, key, amount);
    forall i | 0 <= i < |r|
      ensures r[i].value == SumFor(s, key, amount, r[i].key)
    {
      assert r[i].key in Keys(r);
      LookupFirst(r, r[i].key);
    }
  }

  /** The entry `Lookup` reads holds the value of every entry with that
      key, when keys are unique. */
  lemma {:induction false} LookupFirst(es: seq<Entry>, k: string)
    requires NoDuplicates(Keys(es)) && k in Keys(es)
    ensures forall i :: 0 <= i < |es| && es[i].key == k ==> es[i].value == Lookup(es, k)
  {
    if es[0].key != k {
      assert Keys(es[1..]) == Keys(es)[1..];
      LookupFirst(es[1..], k);
    } else {
      assert forall i :: 0 < i < |es| ==> Keys(es)[i] != Keys(es)[0];
    }
  }

  predicate SortedDesc<T>(s: seq<T>, rank: T -> real) {
    forall i, j :: 0 <= i < j < |s| ==> rank(s[i]) >= rank(s[j])
  }

  /** In a list sorted largest first, the head is at least any element of
      the rest, and so at least any element of a rearrangement of the rest
      with a smaller element added. */
  lemma HeadDominates<T>(s: seq<T>, x: T, rest: seq<T>, rank: T -> real)
    requires SortedDesc(s, rank) && s != [] && rank(s[0]) >= rank(x)
    requires multiset(rest) == multiset(s[1..]) + multiset{x}
    ensures forall i :: 0 <= i < |rest| ==> rank(s[0]) >= rank(rest[i])
  {
    forall i | 0 <= i < |rest|
      ensures rank(s[0]) >= rank(rest[i])
    {
      assert rest[i] in multiset(rest);
      if rest[i] != x {
        assert rest[i] in multiset(s[1..]);
        var j :| 0 <= j < |s[1..]| && s[1..][j] == rest[i];
        assert s[j + 1] == rest[i];
      }
    }
  }

  /** Places `x` after every element whose value is at least its own. */
  function Insert<T>(s: seq<T>, x: T, rank: T -> real): (r: seq<T>)
    requires SortedDesc(s, rank)
    ensures SortedDesc(r, rank)
    ensures multiset(r) == multiset(s) + multiset{x}
  {
    if s == [] then [x]
    else if rank(s[0]) >= rank(x) then
      var rest := Insert(s[1..], x, rank);
      assert s == [s[0]] + s[1..];
      HeadDominates(s, x, rest, rank);
      var r := [s[0]] + rest;
      assert forall j :: 0 < j < |r| ==> r[j] == rest[j - 1];
      r
    else
      var r := [x] + s;
      assert forall j :: 0 < j < |r| ==> r[j] == s[j - 1];
      r
  }

  /** `sort((a, b) => rank(b) - rank(a))`: a stable insertion sort, largest
      first. */
  function SortDesc<T>(s: seq<T>, rank: T -> real): (r: seq<T>)
    ensures SortedDesc(r, rank)
    ensures multiset(r) == multiset(s)
    ensures |r| == |s|
  {
    if s == [] then []
    else
      var r := Insert(SortDesc(s[..|s| - 1], rank), s[|s| - 1], rank);
      assert s == s[..|s| - 1] + [s[|s| - 1]];
      assert |r| == |multiset(r)|;
      r
  }

  /** `pos` strictly increases along `s`. */
  predicate Increasing<T>(s: seq<T>, pos: T -> int) {
    forall i, j :: 0 <= i < j < |s| ==> pos(s[i]) < pos(s[j])
  }

  /** Elements of equal rank come in increasing `pos`: with `pos` the
      position in the input, this is what a stable sort promises. */
  predicate TieOrdered<T>(s: seq<T>, rank: T -> real, pos: T -> int) {
    forall i, j :: 0 <= i < j < |s| && rank(s[i]) == rank(s[j]) ==> pos(s[i]) < pos(s[j])
  }

  /** An element of a rearrangement of `tail` with `x` added is `x` or an
      element of `tail`. */
  lemma FromMultiset<T>(rest: seq<T>, tail: seq<T>, x: T, j: int)
    requires multiset(rest) == multiset(tail) + multiset{x}
    requires 0 <= j < |rest|
    ensures rest[j] == x || exists k :: 0 <= k < |tail| && tail[k] == rest[j]
  {
    assert rest[j] in multiset(rest);
    if rest[j] != x {
      assert rest[j] in multiset(tail);
    }
  }

  /** Inserting an element that comes after everything already sorted
      keeps equal-ranked elements in `pos` order. */
  lemma {:induction false} InsertTieOrdered<T>(s: seq<T>, x: T, rank: T -> real, pos: T -> int)
    requires SortedDesc(s, rank) && TieOrdered(s, rank, pos)
    requires forall i :: 0 <= i < |s| ==> pos(s[i]) < pos(x)
    ensures TieOrdered(Insert(s, x, rank), rank, pos)
  {
    if s != [] {
      var tail := s[1..];
      if rank(s[0]) >= rank(x) {
        InsertTieOrdered(tail, x, rank, pos);
        InsertBehindTieOrdered(s, x, rank, pos);
      } else {
        var r := [x] + s;
        assert forall j :: 0 < j < |r| ==> r[j] == s[j - 1];
        assert forall j :: 0 <= j < |s| ==> rank(s[j]) <= rank(s[0]);
      }
    }
  }

  /** When `x` goes behind the head, the head still precedes every
      equal-ranked element of the rest in `pos`. */
  lemma InsertBehindTieOrdered<T>(s: seq<T>, x: T, rank: T -> real, pos: T -> int)
    requires SortedDesc(s, rank) && TieOrdered(s, rank, pos) && s != [] && rank(s[0]) >= rank(x)
    requires forall i :: 0 <= i < |s| ==> pos(s[i]) < pos(x)
    requires TieOrdered(Insert(s[1..], x, rank), rank, pos)
    ensures TieOrdered(Insert(s, x, rank), rank, pos)
  {
    var rest := Insert(s[1..], x, rank);
    assert Insert(s, x, rank) == [s[0]] + rest;
    HeadBeforeTies(s, x, rest, rank, pos);
    ConsTieOrdered(s[0], rest, rank, pos);
  }

  /** The head of a tie-ordered list precedes every equal-ranked element
      of a rearrangement of its rest with a later `x` added. */
  lemma HeadBeforeTies<T>(s: seq<T>, x: T, rest: seq<T>, rank: T -> real, pos: T -> int)
    requires TieOrdered(s, rank, pos) && s != [] && pos(s[0]) < pos(x)
    requires multiset(rest) == multiset(s[1..]) + multiset{x}
    ensures forall j :: 0 <= j < |rest| && rank(s[0]) == rank(rest[j]) ==> pos(s[0]) < pos(rest[j])
  {
    var tail := s[1..];
    forall j | 0 <= j < |rest| && rank(s[0]) == rank(rest[j])
      ensures pos(s[0]) < pos(rest[j])
    {
      FromMultiset(rest, tail, x, j);
      if rest[j] != x {
        var k :| 0 <= k < |tail| && tail[k] == rest[j];
        assert s[k + 1] == rest[j];
      }
    }
  }

  /** A head that precedes every equal-ranked element of a tie-ordered
      rest keeps the list tie-ordered. */
  lemma ConsTieOrdered<T>(h: T, rest: seq<T>, rank: T -> real, pos: T -> int)
    requires TieOrdered(rest, rank, pos)
    requires forall j :: 0 <= j < |rest| && rank(h) == rank(rest[j]) ==> pos(h) < pos(rest[j])
    ensures TieOrdered([h] + rest, rank, pos)
  {
    var r := [h] + rest;
    assert forall j :: 0 < j < |r| ==> r[j] == rest[j - 1];
  }

  /** The sort is stable: equal-ranked elements keep the order they had in
      a list whose `pos` increases. */
  lemma {:induction false} SortTieOrdered<T>(s: seq<T>, rank: T -> real, pos: T -> int)
    requires Increasing(s, pos)
    ensures TieOrdered(SortDesc(s, rank), rank, pos)
  {
    if s != [] {
      var init := s[..|s| - 1];
      var x := s[|s| - 1];
      SortTieOrdered(init, rank, pos);
      var sorted := SortDesc(init, rank);
      forall i | 0 <= i < |sorted|
        ensures pos(sorted[i]) < pos(x)
      {
        assert sorted[i] in multiset(init);
        var k :| 0 <= k < |init| && init[k] == sorted[i];
        assert s[k] == init[k];
      }
      InsertTieOrdered(sorted, x, rank, pos);
    }
  }

  /** `slice(0, n)`. */
  function Take<T>(s: seq<T>, n: nat): (r: seq<T>)
    ensures |r| <= n && |r| <= |s| && r == s[..|r|]
    ensures |s| >= n ==> |r| == n
  {
    if |s| <= n then s else s[..n]
  }

  function EntryValue(e: Entry): real {
    e.value
  }

  /** Putting an entry with a new key in front keeps the keys distinct. */
  lemma ConsDistinct(e: Entry, es: seq<Entry>)
    requires NoDuplicates(Keys(es))
    requires forall j :: 0 <= j < |es| ==> es[j].key != e.key
    ensures NoDuplicates(Keys([e] + es))
  {
    var r := [e] + es;
    assert forall j :: 0 < j < |r| ==> r[j] == es[j - 1];
  }

  /** An element of a rearrangement of `tail` with `x` added is `x` or
      carries one of `tail`'s keys. */
  lemma KeyFromMultiset(rest: seq<Entry>, tail: seq<Entry>, x: Entry, j: int)
    requires multiset(rest) == multiset(tail) + multiset{x}
    requires 0 <= j < |rest|
    ensures rest[j] == x || rest[j].key in Keys(tail)
  {
    assert rest[j] in multiset(rest);
    if rest[j] != x {
      assert rest[j] in multiset(tail);
      var k :| 0 <= k < |tail| && tail[k] == rest[j];
      assert Keys(tail)[k] == rest[j].key;
    }
  }

  /** The keys of the list with its head taken off. */
  lemma KeysTail(s: seq<Entry>)
    requires s != []
    ensures Keys(s) == [s[0].key] + Keys(s[1..])
  {
    assert s == [s[0]] + s[1..];
    KeysCons(s[0], s[1..]);
  }

  /** Inserting an entry whose key is new keeps the keys distinct. */
  lemma {:induction false} InsertDistinct(s: seq<Entry>, x: Entry)
    requires SortedDesc(s, EntryValue)
    requires NoDuplicates(Keys(s)) && x.key !in Keys(s)
    ensures NoDuplicates(Keys(Insert(s, x, EntryValue)))
  {
    if s == [] {
      assert Insert(s, x, EntryValue) == [x];
    } else if EntryValue(s[0]) >= EntryValue(x) {
      var tail := s[1..];
      KeysTail(s);
      assert NoDuplicates(Keys(tail));
      InsertDistinct(tail, x);
      InsertBehindDistinct(s, x);
    } else {
      assert forall j :: 0 <= j < |s| ==> Keys(s)[j] == s[j].key;
      ConsDistinct(x, s);
      assert Insert(s, x, EntryValue) == [x] + s;
    }
  }

  /** When `x` goes behind the head, the head's key stays apart from the
      keys of the rest. */
  lemma InsertBehindDistinct(s: seq<Entry>, x: Entry)
    requires SortedDesc(s, EntryValue) && s != [] && EntryValue(s[0]) >= EntryValue(x)
    requires NoDuplicates(Keys(s)) && x.key !in Keys(s)
    requires NoDuplicates(Keys(Insert(s[1..], x, EntryValue)))
    ensures NoDuplicates(Keys(Insert(s, x, EntryValue)))
  {
    var tail := s[1..];
    KeysTail(s);
    var rest := Insert(tail, x, EntryValue);
    forall j | 0 <= j < |rest|
      ensures rest[j].key != s[0].key
    {
      KeyFromMultiset(rest, tail, x, j);
    }
    ConsDistinct(s[0], rest);
  }

  /** Sorting entries with distinct keys keeps them distinct. */
  lemma {:induction false} SortDistinct(es: seq<Entry>)
    requires NoDuplicates(Keys(es))
    ensures NoDuplicates(Keys(SortDesc(es, EntryValue)))
  {
    if es != [] {
      var init := es[..|es| - 1];
      var x := es[|es| - 1];
      assert Keys(init) == Keys(es)[..|es| - 1];
      SortDistinct(init);
      var sorted := SortDesc(init, EntryValue);
      forall j | 0 <= j < |sorted|
        ensures Keys(sorted)[j] != x.key
      {
        assert sorted[j] in multiset(init);
        var k :| 0 <= k < |init| && init[k] == sorted[j];
        assert Keys(es)[k] == sorted[j].key;
      }
      InsertDistinct(sorted, x);
    }
  }

  /** `sort((a, b) => b.value - a.value).slice(0, n)` over the entries:
      the `n` largest (all of them when there are fewer), keys still
      distinct when they were. */
  function Top(es: seq<Entry>, n: nat): (r: seq<Entry>)
    ensures |r| == if |es| <= n then |es| else n
    ensures SortedDesc(r, EntryValue)
    ensures forall i :: 0 <= i < |r| ==> r[i] in es
    ensures NoDuplicates(Keys(es)) ==> NoDuplicates(Keys(r))
  {
    var sorted := SortDesc(es, EntryValue);
    var r := Take(sorted, n);
    forall i | 0 <= i < |r| ensures r[i] in es {
      assert r[i] in multiset(sorted);
    }
    assert NoDuplicates(Keys(es)) ==> NoDuplicates(Keys(r)) by {
      if NoDuplicates(Keys(es)) {
        SortDistinct(es);
        assert forall i :: 0 <= i < |r| ==> Keys(r)[i] == Keys(sorted)[i];
      }
    }
    r
  }

  /** A first part of a tie-ordered list is tie-ordered, and an element
      past the cut comes after every kept element of the same rank. */
  lemma CutTies<T>(sorted: seq<T>, m: nat, rank: T -> real, pos: T -> int)
    requires TieOrdered(sorted, rank, pos) && m <= |sorted|
    ensures TieOrdered(sorted[..m], rank, pos)
    ensures forall i, e :: 0 <= i < m && e in sorted && e !in sorted[..m] && rank(e) == rank(sorted[i])
              ==> pos(sorted[i]) < pos(e)
  {
    var r := sorted[..m];
    assert forall i :: 0 <= i < m ==> r[i] == sorted[i];
    assert forall k :: 0 <= k < m ==> sorted[k] in r;
    forall i, e | 0 <= i < m && e in sorted && e !in r && rank(e) == rank(sorted[i])
      ensures pos(sorted[i]) < pos(e)
    {
      var q :| 0 <= q < |sorted| && sorted[q] == e;
    }
  }

  /** The cut is stable: entries of equal value keep their order, and an
      entry left out comes after every kept entry of the same value. */
  lemma TopTies(es: seq<Entry>, n: nat, pos: Entry -> int)
    requires Increasing(es, pos)
    ensures TieOrdered(Top(es, n), EntryValue, pos)
    ensures forall i, e :: 0 <= i < |Top(es, n)| && e in es && e !in Top(es, n) && e.value == Top(es, n)[i].value
              ==> pos(Top(es, n)[i]) < pos(e)
  {
    var sorted := SortDesc(es, EntryValue);
    var r := Top(es, n);
    SortTieOrdered(es, EntryValue, pos);
    assert r == sorted[..|r|];
    CutTies(sorted, |r|, EntryValue, pos);
    forall e | e in es
      ensures e in sorted
    {
      assert e in multiset(sorted);
    }
  }

  /** An entry of a list's first part has its key among that part's keys. */
  lemma PrefixKeys(sorted: seq<Entry>, r: seq<Entry>, u: int)
    requires |r| <= |sorted| && r == sorted[..|r|] && 0 <= u < |sorted|
    ensures u < |r| ==> sorted[u].key in Keys(r)
  {
    if u < |r| {
      assert Keys(r)[u] == sorted[u].key;
    }
  }

  /** Every entry the cut leaves out is worth no more than any entry kept. */
  lemma TopKeepsLargest(es: seq<Entry>, n: nat)
    ensures forall i, e :: 0 <= i < |Top(es, n)| && e in es && e.key !in Keys(Top(es, n)) ==>
              Top(es, n)[i].value >= e.value
  {
    var sorted := SortDesc(es, EntryValue);
    var r := Top(es, n);
    assert r == Take(sorted, n);
    forall i, e | 0 <= i < |r| && e in es && e.key !in Keys(r)
      ensures r[i].value >= e.value
    {
      assert e in multiset(sorted);
      var u :| 0 <= u < |sorted| && sorted[u] == e;
      PrefixKeys(sorted, r, u);
      assert r[i] == sorted[i];
      assert EntryValue(sorted[i]) >= EntryValue(sorted[u]);
    }
  }

  /** The number of keys the elements of `s` carry. */
  function KeyCount<T(==)>(s: seq<T>, key: T -> string): nat {
    |set x | x in s :: key(x)|
  }

  /** The tally has one entry per distinct key. */
  lemma DistinctKeysCount<T>(s: seq<T>, key: T -> string)
    ensures |Dedupe(KeysOf(s, key))| == KeyCount(s, key)
  {
    var ks := KeysOf(s, key);
    DedupeCountsDistinct(ks);
    forall k | k in ks
      ensures k in set x | x in s :: key(x)
    {
      var i :| 0 <= i < |ks| && ks[i] == k;
      assert s[i] in s;
    }
    forall x | x in s
      ensures key(x) in ks
    {
      var i :| 0 <= i < |s| && s[i] == x;
      assert ks[i] == key(x);
    }
    assert (set k | k in ks) == (set x | x in s :: key(x));
  }

  /** The cut of a tally keeps `n` keys, or all of them when there are
      fewer, and never the same key twice. */
  lemma TopOfTallyShape<T>(s: seq<T>, key: T -> string, amount: T -> real, n: nat)
    ensures |Top(Tally(s, key, amount), n)| == if KeyCount(s, key) <= n then KeyCount(s, key) else n
    ensures NoDuplicates(Keys(Top(Tally(s, key, amount), n)))
  {
    TallyKeys(s, key, amount);
    DistinctKeysCount(s, key);
  }

  /** Every entry the cut of a tally keeps is named by a key of the input. */
  lemma TopOfTallyKeys<T>(s: seq<T>, key: T -> string, amount: T -> real, n: nat)
    ensures forall e :: e in Top(Tally(s, key, amount), n) ==> e.key in KeysOf(s, key)
  {
    var es := Tally(s, key, amount);
    TallyKeys(s, key, amount);
    forall e | e in Top(es, n)
      ensures e.key in KeysOf(s, key)
    {
      var t :| 0 <= t < |es| && es[t] == e;
      assert Keys(es)[t] == e.key;
    }
  }

  /** An entry's rank by the first occurrence of its key in `ks`. */
  function KeyPos(ks: seq<string>): Entry -> int {
    (e: Entry) => if e.key in ks then FirstIndex(ks, e.key) else |ks|
  }

  /** A tally's entries come in the order their keys first occur. */
  lemma TallyIncreasing<T>(s: seq<T>, key: T -> string, amount: T -> real)
    ensures Increasing(Tally(s, key, amount), KeyPos(KeysOf(s, key)))
  {
    var es := Tally(s, key, amount);
    var ks := KeysOf(s, key);
    TallyKeys(s, key, amount);
    DedupeOrder(ks);
    var d := Dedupe(ks);
    forall i, j | 0 <= i < j < |es|
      ensures KeyPos(ks)(es[i]) < KeyPos(ks)(es[j])
    {
      assert d[i] == es[i].key && d[j] == es[j].key;
    }
  }

  /** Among keys of equal sum, the cut of a tally keeps them in the order
      they first occur. */
  lemma TopOfTallyTiesKept<T>(s: seq<T>, key: T -> string, amount: T -> real, n: nat)
    ensures var r := Top(Tally(s, key, amount), n);
            var ks := KeysOf(s, key);
            && (forall i :: 0 <= i < |r| ==> r[i].key in ks)
            && (forall i, j :: 0 <= i < j < |r| && r[i].value == r[j].value
                  ==> FirstIndex(ks, r[i].key) < FirstIndex(ks, r[j].key))
  {
    var es := Tally(s, key, amount);
    var r := Top(es, n);
    var ks := KeysOf(s, key);
    TopOfTallyKeys(s, key, amount, n);
    TallyIncreasing(s, key, amount);
    TopTies(es, n, KeyPos(ks));
    assert forall i :: 0 <= i < |r| ==> r[i] in r;
  }

  /** A key the cut of a tally leaves out with the same sum as a kept key
      first occurs after it. */
  lemma TopOfTallyTiesDropped<T>(s: seq<T>, key: T -> string, amount: T -> real, n: nat)
    ensures var r := Top(Tally(s, key, amount), n);
            var ks := KeysOf(s, key);
            forall i, j :: 0 <= i < |r| && 0 <= j < |s| && key(s[j]) !in Keys(r)
              && SumFor(s, key, amount, key(s[j])) == r[i].value
              ==> r[i].key in ks && key(s[j]) in ks && FirstIndex(ks, r[i].key) < FirstIndex(ks, key(s[j]))
  {
    var es := Tally(s, key, amount);
    var r := Top(es, n);
    var ks := KeysOf(s, key);
    TopOfTallyKeys(s, key, amount, n);
    TallyIncreasing(s, key, amount);
    TopTies(es, n, KeyPos(ks));
    forall i, j | 0 <= i < |r| && 0 <= j < |s| && key(s[j]) !in Keys(r) && SumFor(s, key, amount, key(s[j])) == r[i].value
      ensures r[i].key in ks && key(s[j]) in ks && FirstIndex(ks, r[i].key) < FirstIndex(ks, key(s[j]))
    {
      assert r[i] in r;
      assert ks[j] == key(s[j]);
      TallyHasKey(s, key, amount, j);
      var t :| 0 <= t < |es| && es[t] == Entry(key(s[j]), SumFor(s, key, amount, key(s[j])));
      assert es[t] in es;
    }
  }

  /** Each entry the cut of a tally keeps holds the sum over the elements
      with its key. */
  lemma TopOfTallySums<T>(s: seq<T>, key: T -> string, amount: T -> real, n: nat)
    ensures forall e :: e in Top(Tally(s, key, amount), n) ==> e.value == SumFor(s, key, amount, e.key)
  {
    var es := Tally(s, key, amount);
    TallyEntries(s, key, amount);
    forall e | e in Top(es, n)
      ensures e.value == SumFor(s, key, amount, e.key)
    {
      var t :| 0 <= t < |es| && es[t] == e;
    }
  }

  /** Every key of the input has an entry in the tally holding its sum. */
  lemma TallyHasKey<T>(s: seq<T>, key: T -> string, amount: T -> real, j: int)
    requires 0 <= j < |s|
    ensures exists t :: 0 <= t < |Tally(s, key, amount)| && Tally(s, key, amount)[t] == Entry(key(s[j]), SumFor(s, key, amount, key(s[j])))
  {
    var es := Tally(s, key, amount);
    var k := key(s[j]);
    TallySpec(s, key, amount);
    assert k in Keys(es) by {
      assert KeysOf(s, key)[j] == k;
    }
    var t :| 0 <= t < |es| && Keys(es)[t] == k;
    TallyEntries(s, key, amount);
    assert es[t].value == SumFor(s, key, amount, k);
  }

  /** No key the cut of a tally leaves out sums to more than any key it
      keeps. */
  lemma TopOfTallyLargest<T>(s: seq<T>, key: T -> string, amount: T -> real, n: nat)
    ensures forall e, j :: e in Top(Tally(s, key, amount), n) && 0 <= j < |s| && key(s[j]) !in Keys(Top(Tally(s, key, amount), n))
              ==> e.value >= SumFor(s, key, amount, key(s[j]))
  {
    var es := Tally(s, key, amount);
    var top := Top(es, n);
    TopKeepsLargest(es, n);
    forall e, j | e in top && 0 <= j < |s| && key(s[j]) !in Keys(top)
      ensures e.value >= SumFor(s, key, amount, key(s[j]))
    {
      TallyHasKey(s, key, amount, j);
      var t :| 0 <= t < |es| && es[t] == Entry(key(s[j]), SumFor(s, key, amount, key(s[j])));
      var u :| 0 <= u < |top| && top[u] == e;
      assert es[t] in es;
    }
  }

  /** The share of the whole, or 0 when the whole is not positive. */
  function Percent(part: real, whole: real): (r: real)
    ensures whole <= 0.0 ==> r == 0.0
    ensures whole > 0.0 ==> r * whole == part * 100.0
    ensures whole > 0.0 && 0.0 <= part <= whole ==> 0.0 <= r <= 100.0
  {
    if whole > 0.0 then
      var share := part / whole;
      assert share * whole == part;
      assert 0.0 <= part <= whole ==> 0.0 <= share <= 1.0;
      share * 100.0
    else 0.0
  }
}

=== FILE: text.dfy ===
/** String helpers for the JavaScript built-ins the core relies on:
    `replace(/\D/g, '')`, `Number.prototype.toString` on non-negative
    integers, `toLowerCase`, `trim` and `split(c)[0]`. Strings are
    `seq<char>`; JavaScript's `\d` is the ASCII digit class. */
module Text {

  predicate IsDigit(c: char) {
    '0' <= c <= '9'
  }

  predicate AllDigits(s: string) {
    forall i :: 0 <= i < |s| ==> IsDigit(s[i])
  }

  function DigitValue(c: char): nat
    requires IsDigit(c)
  {
    (c - '0') as nat
  }

  function DigitChar(d: nat): (c: char)
    requires d < 10
    ensures IsDigit(c) && DigitValue(c) == d
  {
    ('0' as int + d) as char
  }

  /** `s.replace(/\D/g, '')`: keeps the ASCII digits of `s`, in order. */
  function DigitsOnly(s: string): (r: string)
    ensures AllDigits(r)
    ensures |r| <= |s|
    ensures AllDigits(s) ==> r == s
    ensures forall c :: c in s && IsDigit(c) <==> c in r
  {
    if s == [] then []
    else if IsDigit(s[0]) then [s[0]] + DigitsOnly(s[1..])
    else DigitsOnly(s[1..])
  }

  /** A single character is kept exactly when it is a digit. */
  lemma DigitsOnlyChar(c: char)
    ensures DigitsOnly([c]) == if IsDigit(c) then [c] else []
  {
    assert [c][1..] == [];
  }

  /** The digits of a concatenation are the digits of each part, in order;
      with `DigitsOnlyChar` this fixes the result on every input. */
  lemma {:induction false} DigitsOnlyConcat(a: string, b: string)
    ensures DigitsOnly(a + b) == DigitsOnly(a) + DigitsOnly(b)
  {
    if a == [] {
      assert a + b == b;
    } else {
      assert (a + b)[0] == a[0];
      assert (a + b)[1..] == a[1..] + b;
      DigitsOnlyConcat(a[1..], b);
    }
  }

  /** Decimal rendering of a non-negative integer, as `n.toString()`. */
  function NatToString(n: nat): (r: string)
    ensures |r| >= 1 && AllDigits(r)
    decreases n
  {
    if n < 10 then [DigitChar(n)] else NatToString(n / 10) + [DigitChar(n % 10)]
  }

  /** Reads a string of decimal digits back as a number. */
  function ParseDigits(s: string): nat
    requires AllDigits(s)
  {
    if s == [] then 0 else ParseDigits(s[..|s| - 1]) * 10 + DigitValue(s[|s| - 1])
  }

  function Pow10(k: nat): (r: nat)
    ensures r >= 1
  {
    if k == 0 then 1 else 10 * Pow10(k - 1)
  }

  /** Rendering then reading back a number gives the number. */
  lemma {:induction false} ParseNatToString(n: nat)
    ensures ParseDigits(NatToString(n)) == n
    decreases n
  {
    var r := NatToString(n);
    if n >= 10 {
      ParseNatToString(n / 10);
      assert r[..|r| - 1] == NatToString(n / 10);
    }
  }

  /** A number with `k` decimal digits renders to exactly `k` characters. */
  lemma {:induction false} NatToStringLength(n: nat, k: nat)
    requires k >= 1 && Pow10(k - 1) <= n < Pow10(k)
    ensures |NatToString(n)| == k
    decreases k
  {
    if k == 1 {
      assert n < 10;
    } else {
      assert n >= 10;
      NatToStringLength(n / 10, k - 1);
    }
  }

  /** Every number from 100000 to 999999 renders to six digits. */
  lemma SixDigits(n: nat)
    requires 100000 <= n <= 999999
    ensures |NatToString(n)| == 6
  {
    assert Pow10(1) == 10 && Pow10(2) == 100 && Pow10(3) == 1000;
    assert Pow10(4) == 10000 && Pow10(5) == 100000 && Pow10(6) == 1000000;
    NatToStringLength(n, 6);
  }

  /** ASCII and Latin-1 upper-case letters map to lower case; every other
      character is left unchanged. */
  function LowerChar(c: char): (r: char)
    ensures ('A' <= c <= 'Z') ==> r as int == c as int + 32
    ensures !('A' <= c <= 'Z') && !('À' <= c <= 'Þ' && c != '×') ==> r == c
  {
    if 'A' <= c <= 'Z' || ('À' <= c <= 'Þ' && c != '×') then (c as int + 32) as char
    else c
  }

  function Lower(s: string): (r: string)
    ensures |r| == |s|
    ensures forall i :: 0 <= i < |s| ==> r[i] == LowerChar(s[i])
  {
    if s == [] then [] else [LowerChar(s[0])] + Lower(s[1..])
  }

  /** The white-space and line-terminator characters `trim` removes. */
  predicate IsSpace(c: char) {
    c == ' ' || c == '\t' || c == '\n' || c == '\r' || c == '\U{000B}' || c == '\U{000C}'
    || c == '\U{00A0}' || c == '\U{2028}' || c == '\U{2029}' || c == '\U{FEFF}'
  }

  function TrimStart(s: string): (r: string)
    ensures |r| <= |s| && r == s[|s| - |r|..]
    ensures r == [] || !IsSpace(r[0])
    ensures forall i :: 0 <= i < |s| - |r| ==> IsSpace(s[i])
  {
    if s != [] && IsSpace(s[0]) then TrimStart(s[1..]) else s
  }

  function TrimEnd(s: string): (r: string)
    ensures |r| <= |s| && r == s[..|r|]
    ensures r == [] || !IsSpace(r[|r| - 1])
    ensures forall i :: |r| <= i < |s| ==> IsSpace(s[i])
  {
    if s != [] && IsSpace(s[|s| - 1]) then TrimEnd(s[..|s| - 1]) else s
  }

  /** `r` sits at offset `i` of `s` with only white space around it. */
  predicate TrimmedAt(s: string, r: string, i: nat) {
    && i + |r| <= |s|
    && r == s[i..i + |r|]
    && (forall k :: 0 <= k < i ==> IsSpace(s[k]))
    && (forall k :: i + |r| <= k < |s| ==> IsSpace(s[k]))
  }

  /** `s.trim()`: drops white space at both ends. */
  function Trim(s: string): (r: string)
    ensures r == [] || (!IsSpace(r[0]) && !IsSpace(r[|r| - 1]))
    ensures exists i :: TrimmedAt(s, r, i)
  {
    var t := TrimStart(s);
    var r := TrimEnd(t);
    assert TrimmedAt(s, r, |s| - |t|);
    r
  }

  /** A string of digits has nothing to trim. */
  lemma TrimDigits(s: string)
    requires AllDigits(s)
    ensures Trim(s) == s
  {
    if s != [] {
      assert !IsSpace(s[0]) && !IsSpace(s[|s| - 1]);
    }
  }

  /** `s.split(sep)[0]`: the part of `s` before the first `sep`, or all of
      `s` when `sep` does not occur. */
  function BeforeFirst(s: string, sep: char): (r: string)
    ensures |r| <= |s| && r == s[..|r|]
    ensures sep !in r
    ensures |r| < |s| ==> s[|r|] == sep
  {
    if s == [] || s[0] == sep then [] else [s[0]] + BeforeFirst(s[1..], sep)
  }
}

=== FILE: types.dfy ===
/** The entities of the pickup marketplace: users with a role, and the
    collection record (`CollectionData`) that travels through the pickup
    lifecycle. Timestamps are milliseconds since the epoch; the ISO-8601
    strings the application stores are not modelled. */
module Types {
  import opened Wrappers

  datatype Role = Admin | Advertiser | Collector

  /** The role as the string the application stores and compares. */
  function RoleName(r: Role): string {
    match r
    case Admin => "ADMIN"
    case Advertiser => "ADVERTISER"
    case Collector => "COLLECTOR"
  }

  /** Every declared collection status. The handlers only ever produce
      Anunciada, Aceita, EmRota, EmColeta and Concluida. */
  datatype Status = Rascunho | Anunciada | Agendada | Aceita | EmRota | EmColeta | Concluida | Cancelada

  datatype Material = Papel | Plastico | Vidro | Metal | Organico | Eletronicos | Outros

  function MaterialName(m: Material): string {
    match m
    case Papel => "Papel"
    case Plastico => "Plástico"
    case Vidro => "Vidro"
    case Metal => "Metal"
    case Organico => "Orgânico"
    case Eletronicos => "Eletrônicos"
    case Outros => "Outros"
  }

  datatype Priority = Baixa | Media | Alta

  /** One pickup request. `tsEmRota`, `tsExpiracao` and `abandoned` are
      written by the handlers although the declared record type omits them;
      `abandoned` is the transient `_abandoned` marker. */
  datatype CollectionData = CollectionData(
    id: string,
    idAnunciante: string,
    idColetor: Option<string>,
    status: Status,
    material: Material,
    weight: real,
    neighborhood: string,
    city: string,
    address: string,
    lat: real,
    lng: real,
    companyName: string,
    companyAvatar: string,
    fotoItemUrl: Option<string>,
    codigoConfirmacao: Option<string>,
    tsSolicitada: Option<int>,
    tsAceita: Option<int>,
    tsEmRota: Option<int>,
    tsExpiracao: Option<int>,
    tsConcluida: Option<int>,
    prioridade: Priority,
    abandoned: bool
  )

  /** A registered account. Profile-only optional fields (public name, bio,
      photo, gender, company and vehicle kind, last position) are omitted. */
  datatype User = User(
    id: string,
    username: string,
    email: string,
    name: string,
    role: Role,
    isProfileComplete: bool,
    isActive: bool,
    emailVerificado: bool,
    telefoneVerificado: bool,
    cpfVerificado: bool,
    enderecoVerificado: bool,
    faceVerified: bool,
    password: Option<string>,
    telefone: Option<string>,
    cpf: Option<string>,
    cep: Option<string>,
    rua: Option<string>,
    numero: Option<string>,
    bairro: Option<string>,
    cidade: Option<string>,
    estado: Option<string>
  )

  /** A record's weight in kilograms, as a function value for the tallies. */
  function WeightOf(c: CollectionData): real {
    c.weight
  }

  /** A record's neighbourhood, as a function value for the tallies. */
  function NeighborhoodOf(c: CollectionData): string {
    c.neighborhood
  }

  /** JavaScript truthiness of an optional string: present and non-empty. */
  predicate Truthy(s: Option<string>) {
    s.Some? && s.value != ""
  }
}

=== FILE: wrappers.dfy ===
/** Failure-compatible wrappers used across the model: `Option` for the
    JavaScript `undefined`/`null` of optional fields and lookups, `Result`
    for handlers that either produce a value or report an error message. */
module Wrappers {

  datatype Option<+T> = None | Some(value: T) {

    /** Returns the value inside `Some`, or `default` for `None`. */
    function GetOr(default: T): T {
      match this
      case Some(v) => v
      case None => default
    }
  }

  datatype Result<+R, +E> = Success(value: R) | Failure(error: E)
}
